=== FILE: README.md ===
# Morpheuz sleep statistics — a Dafny model

This project models the statistics engine of the Morpheuz sleep monitor's web
page, `website/morpheuz/view.js`. The engine takes the night's samples as a
`!`-separated string of motion readings, one every ten minutes from a base
instant. It produces five things:

- the chart series (`buildGraphDataSet`);
- the "ignore" markers for the -2 sentinel (`populateIgnore`);
- the smart-alarm window markers (`startStopAlarm`, `returnAbsoluteMatch`);
- the sleep begin and end and the per-band counts (`calculateStats`);
- the CSV export for the mail link and the copy box (`generateCopyLinkData`).

The constants come from `mConst` (awake above 1000, light above 120, a sample
every 10 minutes).

Modules, in dependency order:

- `Wrappers`: `Option`.
- `JsText`: the JavaScript pieces the engine relies on:
  - string `<=` as code-point lexicographic order (`LexLe`);
  - `parseInt(s, 10)`, with `None` standing for NaN;
  - `substr`.
- `Clock`: the time axis.
  - An instant is a whole number of minutes.
  - `Hhmm` and `HhColonMm` are `format("hhmm")` and `format("hh:mm")`.
  - The module also holds the minute-level search `ReturnAbsoluteMatch` and the inclusive bucket test.
- `Samples`: the split slots and the instant each slot is drawn at. Empty slots do not advance the clock. Also the bands, and the overlay markers.
- `Series`: `BuildGraphDataSet` and `PopulateIgnore`.
- `Alarm`: `StartStopAlarm` and its bucket scan. Its clock advances for every slot, empty ones included.
- `Stats`: `CalculateStats`.
  - A walk finds the begin and end of sleep; `SleepBounds` is its reference definition.
  - A loop counts the slots in between; `Tally` is its reference definition.
- `Export`: `GenerateCopyLinkData`, and the proof that the copy box splits back into its lines.

What each loop of the source became:

- The `buildGraphDataSet` loop is the method `Series.BuildGraphDataSet`. Its postcondition describes the whole result map directly; there is no separate reference definition.
- The `populateIgnore` loop is the method `Series.PopulateIgnore`. Its loop invariant keeps the objects equal to the old ones followed by the recursive `Series.IgnoreMarkers`. Its postcondition states the resulting layout through `Series.IgnoreIndices`.
- The minute scan of `returnAbsoluteMatch` is not a method. It is the recursive function `Clock.FirstMinuteMatch`, and lemmas state what it finds.
- The bucket loop of `startStopAlarm` is the method `Alarm.LocateWindow`, proved equal to `Alarm.Located`, which is defined through the recursive `Alarm.FirstBucket`.
- The walk of `calculateStats` is the method `Stats.LocateSleep`, proved equal to `Stats.SleepBounds`. Its count loop is `Stats.CountBands`, proved equal to `Stats.Tally`.
- The one loop of `generateCopyLinkData` is `Export.WriteDataLines`, proved equal to `Export.DataLines` joined with each terminator. The smart-alarm block after the loop is `Export.WriteAlarmLines`, equal to `Export.AlarmLines` joined the same way.

Lemmas state what the reference definitions mean.

### Behaviour that is easy to get wrong (the model follows the code)

- **Empty slots.** In the chart, ignore, statistics and export passes, an empty slot is skipped by `continue` before the clock is advanced, so it takes no time (view.js:44-46 and 54, 64-66 and 82, 174-180, 272-277). The alarm locator advances its clock at the top of every iteration, so there an empty slot takes an interval (view.js:111-115).
- **Unparsable readings.** The chart keeps a failed parse as NaN, since the negative test at view.js:50 is false for NaN. The count loop puts NaN in `deep`, since both of its threshold tests are false for NaN (view.js:226-234).
- **No sleep found.** When no slot qualifies before the walk stops, `ibegin` stays null, and the count loop at view.js:221-235 still starts: a null bound compares as 0. Its first pass reads the array at a null index, gets NaN and counts one phantom `deep`; it then goes on from slot 1. If `iends` is null too, because the alarm fell in no slot, that single pass is all. If the alarm fell in slot k, `iends` is k (view.js:184), and the loop counts the phantom read plus slots 1 to k, skipping slot 0 (Finding 2; `Stats.Tally` states both cases).
- **Window markers.** A window bound can be placed one interval early (Finding 1). This happens when the bound is read at the end of some bucket `k` of a recording with more than `k` slots, at least one interval and less than a day after the base, and the bound is not between 00:00 and 00:09 (`Alarm.BoundaryTargetLocatedEarly`). Outside these conditions the bound can be placed exactly. A bound equal to the base's own reading is found in bucket 0, unless that bucket runs across midnight. The bucket that runs across midnight admits nothing (Finding 3). When the base sits on a 10-minute mark of the clock, that is the bucket ending at 00:00, and a bound from 00:00 to 00:09 is then found by the bucket after it. Otherwise the crossing bucket straddles 00:00, and a bound that reads inside it, before or after midnight, is never located.
- **ALARM export line.** The START, END and ALARM lines are all inside the `smartOn` test at view.js:281, so the ALARM line is written only when the smart alarm is on.

## Model

| member | source | states |
|---|---|---|
| JsText.LexLeDigitsIsNumeric | website/morpheuz/view.js:116-119 | comparing two equal-length digit strings with JavaScript `>=`/`<=` orders them by their numeric value |
| JsText.LexLeTransitive | website/morpheuz/view.js:182 | string `<=` is transitive |
| JsText.LexLeTotal | website/morpheuz/view.js:182 | any two strings are ordered one way or the other |
| JsText.LexLeAntisymmetric | website/morpheuz/view.js:182 | strings ordered both ways are equal |
| JsText.ParseInt | website/morpheuz/view.js:177 | `parseInt` gives NaN exactly when no digit follows the optional sign and leading white space; the empty slot parses to NaN; without a minus sign the value is not negative |
| JsText.ParseIntOfDecimal | website/morpheuz/view.js:49 | a decimal integer followed by a non-digit parses back to itself (the sentinels "-1" and "-2" included) |
| JsText.Substr | website/morpheuz/view.js:285 | `substr(start, len)` is the slice when it fits and empty past the end |
| Clock.HhColonMm | website/morpheuz/view.js:275 | the `hh:mm` reading has five characters, a colon third, and is the `hhmm` reading with that colon inserted |
| Clock.HhmmDigits | website/morpheuz/view.js:92 | the `hhmm` reading of minute 60h+m of any day is the two digits of h then the two digits of m |
| Clock.HhmmOrder | website/morpheuz/view.js:112-116 | comparing two `hhmm` readings as strings compares their minutes of the day |
| Clock.HhmmEqual | website/morpheuz/view.js:92-93 | two instants read the same exactly when they are the same minute of the day |
| Clock.HhmmDistinctWithinDay | website/morpheuz/view.js:89-97 | instants less than a day apart never read the same, so the minute scan finds at most one match |
| Clock.ReturnAbsoluteMatch | website/morpheuz/view.js:89-99 | the result lies in [early, late) whenever that range is non-empty, and in no case before `early` |
| Clock.FirstMinuteMatchIsFirst | website/morpheuz/view.js:90-97 | the minute found reads the target and no earlier one does; when none is found, no minute of the range reads it |
| Clock.ReturnAbsoluteMatchFinds | website/morpheuz/view.js:89-99 | the earliest minute of [early, late) that reads the target, or `early` when no minute does |
| Clock.BucketMatchesNumeric | website/morpheuz/view.js:116 | away from midnight, the string window test admits exactly the minutes from the bucket's start to its end, both included |
| Clock.BucketRejects | website/morpheuz/view.js:116 | a bucket rejects every reading outside its span of minutes |
| Clock.MidnightBucketNeverMatches | website/morpheuz/view.js:112-116 | a bucket that runs across midnight admits no string at all |
| Clock.BucketEndFallsBack | website/morpheuz/view.js:116-117 | a reading at a bucket's end passes that bucket's test, but the minute scan misses it and falls back to the bucket's start |
| Clock.ReturnAbsoluteMatchInclusive | website/morpheuz/view.js:89-99 | corrected scan: the result lies in [early, late] |
| Clock.InclusiveMatchIsExact | website/morpheuz/view.js:116-117 | corrected scan: every reading a bucket admits is found exactly |
| Clock.BucketAcrossMidnightIsExact | website/morpheuz/view.js:112-116 | corrected bucket test: it admits a reading exactly when the reading lies within one interval after the bucket's start, counted around the clock |
| Samples.SlotTimeAdvances | website/morpheuz/view.js:54 | every later slot starts at least one interval after a non-empty one |
| Samples.SlotTimeMonotone | website/morpheuz/view.js:54 | slot instants never run backwards |
| Samples.NonEmptyIndices | website/morpheuz/view.js:43-46 | one position per non-empty slot; the k-th listed slot is non-empty with exactly k non-empty slots before it |
| Samples.NonEmptyIndicesComplete | website/morpheuz/view.js:43-46 | every non-empty slot is listed, at the position given by the non-empty slots before it |
| Samples.NonEmptySlotTimes | website/morpheuz/view.js:48-54 | the k-th non-empty slot is drawn k intervals after the base instant, so consecutive chart points are exactly one interval apart |
| Samples.Classify | website/morpheuz/view.js:226-234 | each band holds exactly the values the if-chain sends there: sentinels are ignored, above 1000 is awake, above 120 is light, anything else (NaN included) is deep |
| Series.BuildGraphDataSet | website/morpheuz/view.js:41-56 | a point exists exactly at the index of each non-empty slot; it is drawn one interval per earlier non-empty slot after the base; its value is null for a negative reading, NaN for an unparsable one, and the reading otherwise |
| Series.IgnoreIndicesComplete | website/morpheuz/view.js:64-68 | every -2 slot is among the listed ignore slots |
| Series.IgnoreMarkerAt | website/morpheuz/view.js:68-80 | the k-th ignore marker sits at the instant of the k-th -2 slot |
| Series.IgnoreSlot | website/morpheuz/view.js:64-82 | one pass of the ignore loop: an empty slot changes nothing; a -2 slot adds one ignore marker at the current instant and raises `show`; every non-empty slot advances the clock one interval |
| Series.IgnoreIndicesEmpty | website/morpheuz/view.js:79 | there is an ignore slot exactly when some slot holds -2 |
| Series.IgnoreIndicesOfTexts | website/morpheuz/view.js:64-68 | on the split sample text, the ignore pass lists a slot exactly when its text is non-empty and parses to -2, and every slot written as "-2" is listed |
| Series.PopulateIgnore | website/morpheuz/view.js:61-84 | the old objects are kept, followed by one ignore marker per -2 slot in slot order at that slot's instant; `show` is raised exactly when a -2 slot exists |
| Alarm.FirstBucketIsFirst | website/morpheuz/view.js:111-121 | the bucket found passes the window test and no earlier bucket does; when none is found, none passes |
| Alarm.FirstBucketStable | website/morpheuz/view.js:116-124 | once a bucket is found, scanning further buckets does not change it |
| Alarm.LocatedStep | website/morpheuz/view.js:116-121 | one more bucket changes the located instant only while nothing is located, and then only if that bucket passes |
| Alarm.TestBucket | website/morpheuz/view.js:116-121 | testing one bound against bucket i turns the bound located over the first i buckets into the bound located over the first i+1 |
| Alarm.LocatedStable | website/morpheuz/view.js:122-124 | the early `break` does not change what is located |
| Alarm.LocateWindow | website/morpheuz/view.js:108-125 | the bucket loop locates each bound in the first bucket that admits it, or leaves it null |
| Alarm.StartStopAlarm | website/morpheuz/view.js:104-157 | smart alarm off: the overlay is unchanged; on: a start marker, then an end marker, each only if its bucket was found, and `show` is raised when either is added |
| Alarm.BoundaryTargetLocatedEarly | website/morpheuz/view.js:89-121 | a window bound lying exactly on a bucket boundary (less than a day after the base, and not within the first interval after midnight) is placed one interval early, on a different clock reading |
| Alarm.WindowOpensTenMinutesEarly | website/morpheuz/view.js:104-121 | from 22:00 with the window opening at 22:30, the start marker lands at 22:20 |
| Alarm.WindowClosesTenMinutesEarly | website/morpheuz/view.js:104-121 | from 22:00 with the window closing at 06:00, the end marker lands at 05:50 |
| Alarm.WindowOpensOnTimeWithInclusiveScan | website/morpheuz/view.js:116-117 | with the corrected scan the 22:30 opening lands at 22:30 |
| Stats.FirstGoneoffHitIsFirst | website/morpheuz/view.js:173-185 | the slot where the walk stops is the first non-empty slot whose bucket admits the fired alarm |
| Stats.FirstGoneoffHitStable | website/morpheuz/view.js:182-185 | once the alarm is met, more slots do not move the stop |
| Stats.FirstQualifying | website/morpheuz/view.js:186-189 | the first slot that is non-empty, no sentinel and at most 1000; no earlier slot qualifies |
| Stats.LastQualifying | website/morpheuz/view.js:204-205 | the last qualifying slot; no later slot qualifies |
| Stats.SleepBegins | website/morpheuz/view.js:186-203 | sleep begins at the first qualifying slot before the alarm, at that slot's instant; no slot up to it holds the alarm |
| Stats.SleepEnds | website/morpheuz/view.js:182-214 | with the alarm met, sleep ends at the located alarm minute in that slot; otherwise it ends one interval after the last qualifying slot |
| Stats.SleepBoundsOrdered | website/morpheuz/view.js:162-214 | when sleep begins it also ends, at no earlier slot index and at a later instant |
| Stats.SleepBoundsAtStop | website/morpheuz/view.js:182-185 | the bounds when the alarm is first met in slot k |
| Stats.TestGoneoff | website/morpheuz/view.js:182 | the walk's alarm test on a non-empty slot holds exactly when the alarm fired and its reading lies in that slot's bucket on the non-empty-slot axis |
| Stats.WalkSlot | website/morpheuz/view.js:174-206 | one pass of the walk: a `tends` comes back exactly when the alarm falls in the slot, and it is the minute the scan finds in that slot's bucket; otherwise the walk has passed the slot with no alarm met so far, its begin the first qualifying slot so far and its end the last |
| Stats.LocateSleep | website/morpheuz/view.js:165-214 | the walk computes the bounds the reference definition gives |
| Stats.BandsPartition | website/morpheuz/view.js:221-234 | each slot the count loop reads lands in exactly one band, and empty slots in none |
| Stats.ReadCountSpansAxis | website/morpheuz/view.js:221-224 | the slots the count loop reads span exactly that many intervals of the time axis |
| Stats.CountSlot | website/morpheuz/view.js:222-234 | one slot adds one to its band and nothing elsewhere; an empty slot adds nothing |
| Stats.CountBands | website/morpheuz/view.js:217-235 | the count loop equals the reference count, including the read of `splitup[null]` when sleep never began |
| Stats.TallyTotal | website/morpheuz/view.js:221-235 | the counts add up to the slots read, plus one when sleep never began |
| Stats.TotalCoversSleepSpan | website/morpheuz/view.js:162-235 | without the alarm, the counted slots times the interval equal the time from sleep begin to sleep end; with the alarm, they exceed it by at most one interval |
| Stats.CalculateStats | website/morpheuz/view.js:162-260 | the reported begin, end and counts; a begin marker then an end marker are added; begin comes before end; when the alarm falls in no slot, the counts cover the span; a night with no begin still counts one deep |
| Stats.NoSleepCountsPhantomDeep | website/morpheuz/view.js:221-235 | a night whose only reading is 1500 reports one deep slot |
| Stats.IntendedTallyCoversSleepSpan | website/morpheuz/view.js:221-235 | corrected count: a night with no begin counts nothing, and otherwise, when the alarm falls in no slot, the counts cover the sleep span |
| Stats.WorkedNight | website/morpheuz/view.js:162-260 | readings 50, 70, -1, -2, 1500, 90 from midnight with no alarm: sleep from 00:00 to 01:00, three deep, one awake, two ignored |
| Export.DataLines | website/morpheuz/view.js:271-278 | one data line per non-empty slot |
| Export.ExportLineCount | website/morpheuz/view.js:265-294 | the export has one line per non-empty slot, two more when the smart alarm is on, and one more when the alarm also fired |
| Export.DataLineAt | website/morpheuz/view.js:275-277 | the k-th data line is the k-th non-empty slot's text, stamped k intervals after the base |
| Export.AlarmLineIsClockReading | website/morpheuz/view.js:285 | an alarm reading `hhmm` is rewritten as the same `hh:mm` form the data lines use |
| Export.WriteDataLines | website/morpheuz/view.js:267-278 | the data loop writes the data lines, each ended by an encoded and by a literal CR LF |
| Export.WriteAlarmLines | website/morpheuz/view.js:281-289 | the window lines, and the alarm line when it fired, only when the smart alarm is on |
| Export.WriteAlarmText | website/morpheuz/view.js:281-289 | the window and alarm text, for one terminator, is the window and alarm lines joined by it: nothing when the smart alarm is off |
| Export.GenerateCopyLinkData | website/morpheuz/view.js:265-294 | the mail body and the copy box hold the same lines, data then window then alarm, with encoded and with literal CR LF ends |
| Export.SplitJoinRoundTrip | website/morpheuz/view.js:276 | CR LF-terminated lines without CR split back into the same lines |
| Export.CopyBodyReadsBack | website/morpheuz/view.js:265-294 | the copy box splits back into the export lines whenever no input text holds a CR |

## Left out

- Browser and page code: the DOM, jqPlot, the query string, and everything else in `view.js` outside lines 28–294.
- `Date`: an instant is a whole number of minutes of local time. Time zones, daylight saving and milliseconds are not modelled.
- `format` and `addMinutes` are not part of this model; `Hhmm`, `HhColonMm` and `+ Interval` stand in for them.
- `fixLen` is not part of this model. `StartStopAlarm` takes the window bounds already padded (`fromstr`, `tostr`).
- `mConst` is split in two: its thresholds are the constant `Clock.MConst` and its sample interval is the constant `Clock.Interval`. Neither has a contract of its own; `Samples.Classify` states the thresholds. Its `vers` field is never read by the modelled code and is left out.
- Overlay styling (colours, widths, dash patterns) is constant and left out. A marker is its kind and instant.
- Strings are sequences of Unicode scalar values, not UTF-16 code units. This changes `substr` on the alarm reading and string `<=` only for text outside the Basic Multilingual Plane, which the clock readings and sample text never contain.
- `parseInt` on numbers beyond 2^53 loses precision in JavaScript. The model's integers are unbounded.
- The chart's `more` array is a map from slot index to point.
- Stats.CalculateStats: models the count as written, phantom `deep` included. The corrected count `Stats.TallyIntended` is proved but is not wired into it.
- Alarm.StartStopAlarm: models the inclusive string test and the half-open minute scan as written. The corrected pieces (`Clock.ReturnAbsoluteMatchInclusive`, `Clock.BucketMatchesAcrossMidnight`) are proved but are not wired into it.

## Findings

| source | as written | input that shows it | evidently intended | confidence | as-written member | corrected member |
|---|---|---|---|---|---|---|
| website/morpheuz/view.js:89-117 | the bucket test admits a target equal to the bucket's end, but the minute scan stops before the end and falls back to the bucket's start | base 22:00, window from 22:30: the start marker lands at 22:20 | place the marker on the minute that reads 22:30 | high; not executed | Alarm.BoundaryTargetLocatedEarly | Clock.InclusiveMatchIsExact |
| website/morpheuz/view.js:221-235 | with no qualifying slot, `ibegin` is null, so the loop reads `splitup[null]` (NaN) and counts one `deep` | a single reading "1500" with no alarm | no band counted when sleep never began | high; not executed | Stats.NoSleepCountsPhantomDeep | Stats.IntendedTallyCoversSleepSpan |
| website/morpheuz/view.js:112-119 | the string test on a bucket that runs across midnight (23:50 to 00:00) admits nothing | base 23:50, window opening at 23:55: no start marker | admit readings from the bucket's start through 23:59 and from 00:00 to its end | medium; not executed | Clock.MidnightBucketNeverMatches | Clock.BucketAcrossMidnightIsExact |

=== FILE: alarm.dfy ===
/** The smart-alarm window locator (`startStopAlarm`).  Its clock advances
    one interval per slot, empty slots included, so bucket `i` always runs
    from `base + 10*i` to `base + 10*(i+1)`. */
module Alarm {
  import opened Wrappers
  import opened JsText
  import opened Clock
  import opened Samples

  /** Bucket `i` of the locator's axis passes the inclusive test for `target`. */
  predicate MatchesBucket(base: int, i: nat, target: string) {
    BucketMatches(base + Interval * i, target)
  }

  /** The first of the first `n` buckets that passes the test for `target`. */
  function FirstBucket(base: int, n: nat, target: string): (r: Option<nat>)
    ensures r.Some? ==> r.value < n
  {
    if n == 0 then None
    else
      var f := FirstBucket(base, n - 1, target);
      if f.Some? then f
      else if MatchesBucket(base, n - 1, target) then Some(n - 1)
      else None
  }

  /** The bucket found passes the test and none before it does; when none
      is found, none of the first `n` passes. */
  lemma {:induction false} FirstBucketIsFirst(base: int, n: nat, target: string)
    ensures var r := FirstBucket(base, n, target);
            && (r.Some? ==> MatchesBucket(base, r.value, target))
            && (r.Some? ==> forall i :: 0 <= i < r.value ==> !MatchesBucket(base, i, target))
            && (r.None? ==> forall i :: 0 <= i < n ==> !MatchesBucket(base, i, target))
  {
    if n > 0 {
      FirstBucketIsFirst(base, n - 1, target);
    }
  }

  /** Once found among the first `m` buckets, the first match stays the
      first match however many more buckets are scanned. */
  lemma {:induction false} FirstBucketStable(base: int, m: nat, n: nat, target: string)
    requires m <= n && FirstBucket(base, m, target).Some?
    ensures FirstBucket(base, n, target) == FirstBucket(base, m, target)
    decreases n
  {
    if n > m {
      FirstBucketStable(base, m, n - 1, target);
    }
  }

  /** No bucket matches among the first `n` exactly when none is found. */
  lemma {:induction false} FirstBucketNone(base: int, n: nat, target: string)
    requires forall i :: 0 <= i < n ==> !MatchesBucket(base, i, target)
    ensures FirstBucket(base, n, target).None?
  {
    if n > 0 {
      FirstBucketNone(base, n - 1, target);
    }
  }

  /** The first bucket to pass is the one that passes after none before it did. */
  lemma FirstBucketAt(base: int, k: nat, n: nat, target: string)
    requires k < n && MatchesBucket(base, k, target)
    requires forall i :: 0 <= i < k ==> !MatchesBucket(base, i, target)
    ensures FirstBucket(base, n, target) == Some(k)
  {
    FirstBucketNone(base, k, target);
    FirstBucketStable(base, k + 1, n, target);
  }

  /** Where the locator puts `target` once bucket `i` has matched: the
      minute-level search over that bucket. */
  function LocateInBucket(base: int, i: nat, target: string): int {
    ReturnAbsoluteMatch(base + Interval * i, base + Interval * (i + 1), target)
  }

  function Located(base: int, n: nat, target: string): Option<int> {
    match FirstBucket(base, n, target)
    case Some(i) => Some(LocateInBucket(base, i, target))
    case None => None
  }

  /** Scanning one more bucket changes the located instant only while
      nothing has been located yet. */
  lemma LocatedStep(base: int, i: nat, target: string)
    ensures Located(base, i + 1, target) ==
              if Located(base, i, target).Some? then Located(base, i, target)
              else if BucketMatches(base + Interval * i, target)
              then Some(ReturnAbsoluteMatch(base + Interval * i, base + Interval * i + Interval, target))
              else None
  {
    var f := FirstBucket(base, i, target);
    assert FirstBucket(base, i + 1, target) ==
             if f.Some? then f else if MatchesBucket(base, i, target) then Some(i) else None;
    assert LocateInBucket(base, i, target) ==
             ReturnAbsoluteMatch(base + Interval * i, base + Interval * i + Interval, target) by {
      assert base + Interval * (i + 1) == base + Interval * i + Interval;
    }
  }

  lemma LocatedStable(base: int, m: nat, n: nat, target: string)
    requires m <= n && Located(base, m, target).Some?
    ensures Located(base, n, target) == Located(base, m, target)
  {
    FirstBucketStable(base, m, n, target);
  }

  /** One target's test on bucket `i` (starting at `t1`, ending at `t2`):
      a target not located yet is located in this bucket when the bucket
      admits it. */
  method TestBucket(found: Option<int>, t1: int, t2: int, target: string,
                    ghost base: int, ghost i: nat) returns (r: Option<int>)
    requires found == Located(base, i, target)
    requires t1 == base + Interval * i && t2 == t1 + Interval
    ensures r == Located(base, i + 1, target)
  {
    LocatedStep(base, i, target);
    r := found;
    if found.None? && BucketMatches(t1, target) {
      r := Some(ReturnAbsoluteMatch(t1, t2, target));
    }
  }

  /** The bucket scan of `startStopAlarm`: the located start and end
      instants, each None (null) when no bucket matched. */
  method LocateWindow(fromstr: string, tostr: string, base: int, n: nat)
    returns (early: Option<int>, late: Option<int>)
    ensures early == Located(base, n, fromstr)
    ensures late == Located(base, n, tostr)
  {
    var smartStartPoint := base;
    early, late := None, None;
    var i := 0;
    while i < n
      invariant 0 <= i <= n
      invariant smartStartPoint == base + Interval * i
      invariant early == Located(base, i, fromstr)
      invariant late == Located(base, i, tostr)
    {
      var smartStartPoint1 := smartStartPoint;
      smartStartPoint := smartStartPoint + Interval;
      early := TestBucket(early, smartStartPoint1, smartStartPoint, fromstr, base, i);
      late := TestBucket(late, smartStartPoint1, smartStartPoint, tostr, base, i);
      i := i + 1;
      if late.Some? && early.Some? {
        LocatedStable(base, i, n, fromstr);
        LocatedStable(base, i, n, tostr);
        return;
      }
    }
  }

  /** `startStopAlarm`: nothing when the smart alarm is off; otherwise a
      "start" line where `fromstr` was located, then an "end" line where
      `tostr` was, each only if its bucket was found.  `fromstr` and
      `tostr` are the configured bounds already padded to `hhmm`; of the
      slots only their number matters. */
  method StartStopAlarm(smartOn: bool, fromstr: string, tostr: string, base: int,
                        conf: Overlay, splitup: seq<Slot>) returns (r: Overlay)
    ensures !smartOn ==> r == conf
    ensures smartOn ==>
              var e := FirstBucket(base, |splitup|, fromstr);
              var l := FirstBucket(base, |splitup|, tostr);
              && r.objects == conf.objects
                   + (if e.Some? then [Marker(Start, LocateInBucket(base, e.value, fromstr))] else [])
                   + (if l.Some? then [Marker(End, LocateInBucket(base, l.value, tostr))] else [])
              && r.show == (conf.show || e.Some? || l.Some?)
  {
    r := conf;
    if !smartOn {
      return;
    }
    var early, late := LocateWindow(fromstr, tostr, base, |splitup|);
    if early.Some? {
      r := Overlay(true, r.objects + [Marker(Start, early.value)]);
    }
    if late.Some? {
      r := Overlay(true, r.objects + [Marker(End, late.value)]);
    }
  }

  // ---------------------------------------------------------------------
  // A window bound on a bucket boundary

  /** Every bucket before bucket `k` rejects the reading at the end of
      bucket `k`, provided the recording so far spans less than a day. */
  lemma EarlierBucketRejects(base: int, j: nat, k: nat, u: int)
    requires j < k && u == base + Interval * (k + 1)
    requires Interval <= MinuteOfDay(u) && u - base < MinutesPerDay
    ensures !MatchesBucket(base, j, Hhmm(u))
  {
    var t := base + Interval * j;
    var d: nat := u - t;
    assert Interval * (j + 1) <= Interval * k;
    if d <= MinuteOfDay(u) {
      MinuteOfDayBack(u, d);
    } else {
      MinuteOfDayBackWraps(u, d);
    }
    assert u - d == t;
    BucketRejects(t, u);
  }

  /** A window bound that falls exactly where one bucket ends and the next
      begins is admitted first by the earlier bucket, whose minute scan
      stops before the bound: the marker lands one interval early, on a
      minute that reads differently from the bound. */
  lemma BoundaryTargetLocatedEarly(base: int, k: nat, n: nat, u: int)
    requires k < n && u == base + Interval * (k + 1)
    requires Interval <= MinuteOfDay(u) && u - base < MinutesPerDay
    ensures FirstBucket(base, n, Hhmm(u)) == Some(k)
    ensures Located(base, n, Hhmm(u)) == Some(u - Interval)
    ensures Hhmm(u - Interval) != Hhmm(u)
  {
    forall j | 0 <= j < k
      ensures !MatchesBucket(base, j, Hhmm(u))
    {
      EarlierBucketRejects(base, j, k, u);
    }
    MinuteOfDayBack(u, Interval);
    assert u - Interval + Interval == u;
    BucketEndFallsBack(u - Interval);
    FirstBucketAt(base, k, n, Hhmm(u));
  }

  /** Recording from 22:00 (instant 1320) with the window opening at 22:30:
      the 22:30 reading ends bucket 2 (22:20 to 22:30), and the start
      marker lands at 22:20 however long the recording. */
  lemma WindowOpensTenMinutesEarly()
    ensures Hhmm(1350) == "2230" && Hhmm(1340) == "2220"
    ensures forall n: nat :: 3 <= n ==> Located(1320, n, "2230") == Some(1340)
  {
    HhmmDigits(1350, 0, 22, 30);
    HhmmDigits(1340, 0, 22, 20);
    MinuteOfDayOnDay(1350, 0);
    forall n: nat | 3 <= n
      ensures Located(1320, n, Hhmm(1350)) == Some(1340)
    {
      BoundaryTargetLocatedEarly(1320, 2, n, 1350);
    }
  }

  /** The same night with the window closing at 06:00: bucket 47 (05:50 to
      06:00) is the first to admit "0600", across midnight, and the end
      marker lands at 05:50. */
  lemma WindowClosesTenMinutesEarly()
    ensures Hhmm(1800) == "0600" && Hhmm(1790) == "0550"
    ensures forall n: nat :: 48 <= n ==> Located(1320, n, "0600") == Some(1790)
  {
    HhmmDigits(1800, 1, 6, 0);
    HhmmDigits(1790, 1, 5, 50);
    MinuteOfDayOnDay(1800, 1);
    forall n: nat | 48 <= n
      ensures Located(1320, n, Hhmm(1800)) == Some(1790)
    {
      BoundaryTargetLocatedEarly(1320, 47, n, 1800);
    }
  }

  /** With the inclusive minute scan, the 22:30 opening is placed exactly. */
  lemma WindowOpensOnTimeWithInclusiveScan()
    ensures ReturnAbsoluteMatchInclusive(1340, 1350, "2230") == 1350
  {
    HhmmDigits(1350, 0, 22, 30);
    BucketMatchesNumeric(1340, 1350);
    InclusiveMatchIsExact(1340, 1350);
    var r := ReturnAbsoluteMatchInclusive(1340, 1350, Hhmm(1350));
    if r != 1350 {
      HhmmDistinctWithinDay(r, 1350 - r);
      assert false;
    }
  }
}

=== FILE: clock.dfy ===
/** The time axis the statistics engine works on.  An instant is a whole
    number of minutes of local time; advancing a `Date` by n minutes is
    adding n.  `format("hhmm")` is the 24-hour, zero-padded clock reading
    of the instant's minute of the day, and `format("hh:mm")` the same
    reading with a colon.  Time zones and daylight saving are not part of
    this model. */
module Clock {
  import opened Wrappers
  import opened JsText

  /** The band thresholds of the page's constants (`mConst`). */
  datatype Config = Config(awakeAbove: int, lightAbove: int)

  const MConst: Config := Config(1000, 120)

  /** Minutes between two consecutive samples (`sampleIntervalMins` of
      `mConst`). */
  const Interval: nat := 10

  const MinutesPerDay: nat := 1440

  function MinuteOfDay(t: int): (m: nat)
    ensures m < MinutesPerDay
  {
    t % MinutesPerDay
  }

  /** The minute of the day of an instant on day `d` of the axis. */
  lemma MinuteOfDayOnDay(t: int, d: int)
    requires MinutesPerDay * d <= t < MinutesPerDay * (d + 1)
    ensures MinuteOfDay(t) == t - MinutesPerDay * d
  {
  }

  /** `n` written in exactly `w` decimal digits, zero-padded on the left. */
  function ZeroPad(n: nat, w: nat): (r: string)
    ensures |r| == w
  {
    if w == 0 then "" else ZeroPad(n / 10, w - 1) + [DigitChar(n % 10)]
  }

  lemma {:induction false} ZeroPadValue(n: nat, w: nat)
    requires n < Pow10(w)
    ensures AllDigits(ZeroPad(n, w)) && DecimalValue(ZeroPad(n, w)) == n
  {
    if w > 0 {
      var r := ZeroPad(n, w);
      assert n / 10 < Pow10(w - 1);
      ZeroPadValue(n / 10, w - 1);
      assert r[..w - 1] == ZeroPad(n / 10, w - 1);
      assert r[w - 1] == DigitChar(n % 10);
    }
  }

  function Hour(t: int): nat { MinuteOfDay(t) / 60 }

  function Minute(t: int): nat { MinuteOfDay(t) % 60 }

  /** `t.format("hhmm")`: hour and minute as one four-digit, zero-padded
      number. */
  function Hhmm(t: int): (r: string)
    ensures |r| == 4
  {
    ZeroPad(100 * Hour(t) + Minute(t), 4)
  }

  /** The four characters of `hhmm` are digits spelling hour*100 + minute. */
  lemma HhmmValue(t: int)
    ensures AllDigits(Hhmm(t))
    ensures DecimalValue(Hhmm(t)) == 100 * Hour(t) + Minute(t)
  {
    assert Pow10(4) == 10000;
    ZeroPadValue(100 * Hour(t) + Minute(t), 4);
  }

  /** The four characters of the reading of the minute `60*h + m` of any
      day. */
  lemma HhmmDigits(t: int, d: int, h: nat, m: nat)
    requires h < 24 && m < 60 && t == MinutesPerDay * d + 60 * h + m
    ensures Hhmm(t) == [DigitChar(h / 10), DigitChar(h % 10), DigitChar(m / 10), DigitChar(m % 10)]
  {
    MinuteOfDayOnDay(t, d);
    assert Hour(t) == h && Minute(t) == m;
    ZeroPadFour(100 * h + m);
    ClockNumberDigits(h, m);
  }

  /** The decimal digits of hour*100 + minute. */
  lemma ClockNumberDigits(h: nat, m: nat)
    requires h < 24 && m < 60
    ensures var n := 100 * h + m;
            && n / 10 / 10 / 10 % 10 == h / 10 && n / 10 / 10 % 10 == h % 10
            && n / 10 % 10 == m / 10 && n % 10 == m % 10
  {
    var n := 100 * h + m;
    assert n / 10 == 10 * h + m / 10;
    assert n / 10 / 10 == h;
  }

  /** Four-digit padding spelled out digit by digit. */
  lemma ZeroPadFour(n: nat)
    ensures ZeroPad(n, 4)
            == [DigitChar(n / 10 / 10 / 10 % 10), DigitChar(n / 10 / 10 % 10), DigitChar(n / 10 % 10), DigitChar(n % 10)]
  {
    var a := n / 10;
    var b := a / 10;
    var c := b / 10;
    assert ZeroPad(c, 1) == [DigitChar(c % 10)];
    assert ZeroPad(b, 2) == ZeroPad(c, 1) + [DigitChar(b % 10)];
    assert ZeroPad(a, 3) == ZeroPad(b, 2) + [DigitChar(a % 10)];
    assert ZeroPad(n, 4) == ZeroPad(a, 3) + [DigitChar(n % 10)];
  }

  /** `t.format("hh:mm")`: the `hhmm` reading with a colon after the hour. */
  function HhColonMm(t: int): (r: string)
    ensures |r| == 5 && r[2] == ':'
    ensures r[..2] + r[3..] == Hhmm(t)
  {
    Hhmm(t)[..2] + ":" + Hhmm(t)[2..]
  }

  /** Comparing two `hhmm` readings as strings compares the minutes of the
      day they stand for. */
  lemma HhmmOrder(a: int, b: int)
    ensures LexLe(Hhmm(a), Hhmm(b)) <==> MinuteOfDay(a) <= MinuteOfDay(b)
  {
    HhmmValue(a);
    HhmmValue(b);
    LexLeDigitsIsNumeric(Hhmm(a), Hhmm(b));
    ClockNumberOrder(MinuteOfDay(a), MinuteOfDay(b));
  }

  /** Reading a minute of the day as the number hour*100 + minute keeps
      its order. */
  lemma ClockNumberOrder(ma: nat, mb: nat)
    ensures 100 * (ma / 60) + ma % 60 <= 100 * (mb / 60) + mb % 60 <==> ma <= mb
  {
    var ha, xa, hb, xb := ma / 60, ma % 60, mb / 60, mb % 60;
    assert ma == 60 * ha + xa && 0 <= xa < 60;
    assert mb == 60 * hb + xb && 0 <= xb < 60;
    if ha < hb {
      assert 100 * ha + xa < 100 * hb + xb;
      assert ma < mb;
    } else if ha > hb {
      assert 100 * ha + xa > 100 * hb + xb;
      assert ma > mb;
    }
  }

  /** Two instants read the same on the clock exactly when they are the
      same minute of the day. */
  lemma HhmmEqual(a: int, b: int)
    ensures Hhmm(a) == Hhmm(b) <==> MinuteOfDay(a) == MinuteOfDay(b)
  {
    HhmmOrder(a, b);
    HhmmOrder(b, a);
    if Hhmm(a) == Hhmm(b) {
      LexLeReflexive(Hhmm(a));
    }
  }

  lemma MinuteOfDayShift(t: int, k: nat)
    requires MinuteOfDay(t) + k < MinutesPerDay
    ensures MinuteOfDay(t + k) == MinuteOfDay(t) + k
  {
    var q := t / MinutesPerDay;
    assert t == MinutesPerDay * q + MinuteOfDay(t);
    assert t + k == MinutesPerDay * q + (MinuteOfDay(t) + k);
  }

  lemma MinuteOfDayWraps(t: int, k: nat)
    requires k < MinutesPerDay <= MinuteOfDay(t) + k
    ensures MinuteOfDay(t + k) == MinuteOfDay(t) + k - MinutesPerDay
  {
    var q := t / MinutesPerDay;
    assert t == MinutesPerDay * q + MinuteOfDay(t);
    assert t + k == MinutesPerDay * (q + 1) + (MinuteOfDay(t) + k - MinutesPerDay);
  }

  /** Stepping back `d` minutes within the same day. */
  lemma MinuteOfDayBack(u: int, d: nat)
    requires d <= MinuteOfDay(u)
    ensures MinuteOfDay(u - d) == MinuteOfDay(u) - d
  {
    var q := u / MinutesPerDay;
    assert u == MinutesPerDay * q + MinuteOfDay(u);
    assert u - d == MinutesPerDay * q + (MinuteOfDay(u) - d);
  }

  /** Stepping back `d` minutes, less than a day, into the day before. */
  lemma MinuteOfDayBackWraps(u: int, d: nat)
    requires MinuteOfDay(u) < d < MinutesPerDay
    ensures MinuteOfDay(u - d) == MinuteOfDay(u) - d + MinutesPerDay
  {
    var q := u / MinutesPerDay;
    assert u == MinutesPerDay * q + MinuteOfDay(u);
    assert u - d == MinutesPerDay * (q - 1) + (MinuteOfDay(u) - d + MinutesPerDay);
  }

  /** Less than a day apart, two instants never read the same. */
  lemma HhmmDistinctWithinDay(t: int, d: int)
    requires 0 < d < MinutesPerDay
    ensures Hhmm(t) != Hhmm(t + d)
  {
    HhmmEqual(t, t + d);
    if MinuteOfDay(t) + d < MinutesPerDay {
      MinuteOfDayShift(t, d);
    } else {
      MinuteOfDayWraps(t, d);
    }
  }

  // ---------------------------------------------------------------------
  // Minute-level search

  /** The first minute in [point, late) whose `hhmm` reading is `target`. */
  function FirstMinuteMatch(point: int, late: int, target: string): (r: Option<int>)
    decreases late - point
    ensures r.Some? ==> point <= r.value < late
  {
    if point >= late then None
    else if Hhmm(point) == target then Some(point)
    else FirstMinuteMatch(point + 1, late, target)
  }

  /** The minute found reads `target` and no earlier one does; when none is
      found, no minute of [point, late) reads it. */
  lemma {:induction false} FirstMinuteMatchIsFirst(point: int, late: int, target: string)
    decreases late - point
    ensures var r := FirstMinuteMatch(point, late, target);
            && (r.Some? ==> Hhmm(r.value) == target)
            && (r.Some? ==> forall p :: point <= p < r.value ==> Hhmm(p) != target)
            && (r.None? ==> forall p :: point <= p < late ==> Hhmm(p) != target)
  {
    if point < late && Hhmm(point) != target {
      FirstMinuteMatchIsFirst(point + 1, late, target);
    }
  }

  /** `returnAbsoluteMatch(early, late, actualstr)`: the earliest minute of
      [early, late) that reads `target`, or `early` when there is none. */
  function ReturnAbsoluteMatch(early: int, late: int, target: string): (r: int)
    ensures early <= r && (early < late ==> r < late)
  {
    match FirstMinuteMatch(early, late, target)
    case Some(p) => p
    case None => early
  }

  /** The minute found is the earliest reading `target`; with no such
      minute the search falls back to `early`. */
  lemma ReturnAbsoluteMatchFinds(early: int, late: int, target: string)
    ensures var r := ReturnAbsoluteMatch(early, late, target);
            && ((exists p :: early <= p < late && Hhmm(p) == target) ==>
                  Hhmm(r) == target && forall p :: early <= p < r ==> Hhmm(p) != target)
            && ((forall p :: early <= p < late ==> Hhmm(p) != target) ==> r == early)
  {
    FirstMinuteMatchIsFirst(early, late, target);
  }

  // ---------------------------------------------------------------------
  // Buckets

  /** The inclusive string test that decides whether `target` falls in the
      sampling interval starting at `t`: it reads no earlier than the
      interval's start and no later than its end. */
  predicate BucketMatches(t: int, target: string) {
    LexLe(Hhmm(t), target) && LexLe(target, Hhmm(t + Interval))
  }

  /** Away from midnight, the string test on a clock reading is the
      numeric test on minutes of the day, inclusive at both ends. */
  lemma BucketMatchesNumeric(t: int, u: int)
    requires MinuteOfDay(t) + Interval < MinutesPerDay
    ensures BucketMatches(t, Hhmm(u)) <==>
              MinuteOfDay(t) <= MinuteOfDay(u) <= MinuteOfDay(t) + Interval
  {
    HhmmOrder(t, u);
    HhmmOrder(u, t + Interval);
    MinuteOfDayShift(t, Interval);
  }

  /** A bucket that runs across midnight (for instance 2355 to 0005) ends on
      a reading that sorts below its start, so no string at all passes its
      inclusive test. */
  lemma MidnightBucketNeverMatches(t: int, target: string)
    requires MinuteOfDay(t) + Interval >= MinutesPerDay
    ensures !BucketMatches(t, target)
  {
    if BucketMatches(t, target) {
      LexLeTransitive(Hhmm(t), target, Hhmm(t + Interval));
      HhmmOrder(t, t + Interval);
      MinuteOfDayWraps(t, Interval);
      assert false;
    }
  }

  /** The evidently intended bucket test: when the bucket's end reads
      below its start, the bucket runs across midnight and admits readings
      from its start to 2359 and from 0000 to its end. */
  predicate BucketMatchesAcrossMidnight(t: int, target: string) {
    if LexLe(Hhmm(t), Hhmm(t + Interval)) then BucketMatches(t, target)
    else LexLe(Hhmm(t), target) || LexLe(target, Hhmm(t + Interval))
  }

  /** The wrapping test admits a reading exactly when it lies within one
      interval after the bucket's start, counted around the clock face. */
  lemma BucketAcrossMidnightIsExact(t: int, u: int)
    ensures BucketMatchesAcrossMidnight(t, Hhmm(u)) <==>
              (MinuteOfDay(u) - MinuteOfDay(t)) % MinutesPerDay <= Interval
  {
    ClockFaceDistance(MinuteOfDay(t), MinuteOfDay(u));
    if MinuteOfDay(t) + Interval < MinutesPerDay {
      SameDayBucket(t, u);
    } else {
      MidnightBucket(t, u);
    }
  }

  /** Minutes from `mt` forward to `mu` around the clock face. */
  lemma ClockFaceDistance(mt: nat, mu: nat)
    requires mt < MinutesPerDay && mu < MinutesPerDay
    ensures mt <= mu ==> (mu - mt) % MinutesPerDay == mu - mt
    ensures mu < mt ==> (mu - mt) % MinutesPerDay == mu - mt + MinutesPerDay
  {
  }

  lemma SameDayBucket(t: int, u: int)
    requires MinuteOfDay(t) + Interval < MinutesPerDay
    ensures BucketMatchesAcrossMidnight(t, Hhmm(u)) <==>
              MinuteOfDay(t) <= MinuteOfDay(u) <= MinuteOfDay(t) + Interval
  {
    MinuteOfDayShift(t, Interval);
    HhmmOrder(t, t + Interval);
    BucketMatchesNumeric(t, u);
  }

  lemma MidnightBucket(t: int, u: int)
    requires MinuteOfDay(t) + Interval >= MinutesPerDay
    ensures BucketMatchesAcrossMidnight(t, Hhmm(u)) <==>
              MinuteOfDay(t) <= MinuteOfDay(u) || MinuteOfDay(u) <= MinuteOfDay(t) + Interval - MinutesPerDay
  {
    MinuteOfDayWraps(t, Interval);
    HhmmOrder(t, t + Interval);
    HhmmOrder(t, u);
    HhmmOrder(u, t + Interval);
  }

  /** A bucket rejects every reading outside its span of minutes. */
  lemma BucketRejects(t: int, u: int)
    requires !(MinuteOfDay(t) <= MinuteOfDay(u) <= MinuteOfDay(t) + Interval)
    ensures !BucketMatches(t, Hhmm(u))
  {
    if MinuteOfDay(t) + Interval >= MinutesPerDay {
      MidnightBucketNeverMatches(t, Hhmm(u));
    } else {
      BucketMatchesNumeric(t, u);
    }
  }

  /** A target read exactly at a bucket's end passes that bucket's inclusive
      test, but the minute scan stops short of the end, so the search falls
      back to the bucket's start. */
  lemma BucketEndFallsBack(t: int)
    requires MinuteOfDay(t) + Interval < MinutesPerDay
    ensures BucketMatches(t, Hhmm(t + Interval))
    ensures ReturnAbsoluteMatch(t, t + Interval, Hhmm(t + Interval)) == t
    ensures Hhmm(t) != Hhmm(t + Interval)
  {
    BucketMatchesNumeric(t, t + Interval);
    MinuteOfDayShift(t, Interval);
    forall p | t <= p < t + Interval
      ensures Hhmm(p) != Hhmm(t + Interval)
    {
      HhmmDistinctWithinDay(p, t + Interval - p);
    }
    HhmmDistinctWithinDay(t, Interval);
    ReturnAbsoluteMatchFinds(t, t + Interval, Hhmm(t + Interval));
  }

  /** The evidently intended search: the scan also tries the bucket's last
      minute, so it covers every reading the inclusive bucket test admits. */
  function ReturnAbsoluteMatchInclusive(early: int, late: int, target: string): (r: int)
    ensures early <= r && (early <= late ==> r <= late)
  {
    match FirstMinuteMatch(early, late + 1, target)
    case Some(p) => p
    case None => early
  }

  /** The inclusive search finds `target` whenever some minute of
      [early, late] reads it. */
  lemma ReturnAbsoluteMatchInclusiveFinds(early: int, late: int, target: string)
    ensures (exists p :: early <= p <= late && Hhmm(p) == target) ==>
              Hhmm(ReturnAbsoluteMatchInclusive(early, late, target)) == target
  {
    FirstMinuteMatchIsFirst(early, late + 1, target);
  }

  /** With the inclusive scan, every clock reading a bucket admits is found
      exactly. */
  lemma InclusiveMatchIsExact(t: int, u: int)
    requires BucketMatches(t, Hhmm(u))
    ensures Hhmm(ReturnAbsoluteMatchInclusive(t, t + Interval, Hhmm(u))) == Hhmm(u)
  {
    if MinuteOfDay(t) + Interval >= MinutesPerDay {
      MidnightBucketNeverMatches(t, Hhmm(u));
    } else {
      BucketMatchesNumeric(t, u);
      var k := MinuteOfDay(u) - MinuteOfDay(t);
      MinuteOfDayShift(t, k);
      HhmmEqual(t + k, u);
      assert t <= t + k <= t + Interval && Hhmm(t + k) == Hhmm(u);
      ReturnAbsoluteMatchInclusiveFinds(t, t + Interval, Hhmm(u));
    }
  }
}

=== FILE: export.dfy ===
/** The CSV export (`generateCopyLinkData`): one `hh:mm,value` line per
    non-empty slot, then the smart-alarm window and the alarm that fired,
    written once with URL-encoded line ends for the mail link and once with
    CR LF for the copy box. */
module Export {
  import opened Wrappers
  import opened JsText
  import opened Clock
  import opened Samples

  const CrLf: string := "\r\n"

  const EncodedCrLf: string := "%0D%0A"

  /** The CSV line of a slot drawn at instant `t`. */
  function DataLine(t: int, raw: string): string {
    HhColonMm(t) + "," + raw
  }

  /** The data lines of the first `n` slots: the k-th non-empty slot is
      written at the k-th interval after `base`, with its text unchanged. */
  function DataLines(base: int, s: seq<Slot>, n: nat): (r: seq<string>)
    requires n <= |s|
    ensures |r| == NonEmptyBefore(s, n)
  {
    if n == 0 then []
    else
      DataLines(base, s, n - 1)
      + (if IsEmpty(s[n - 1]) then [] else [DataLine(SlotTime(base, s, n - 1), s[n - 1].raw)])
  }

  /** The k-th data line is the k-th non-empty slot's text, written at the
      k-th interval after `base`. */
  lemma {:induction false} DataLineAt(base: int, s: seq<Slot>, n: nat, k: nat)
    requires n <= |s| && k < NonEmptyBefore(s, n)
    ensures DataLines(base, s, n)[k] == DataLine(base + Interval * k, s[NonEmptyIndices(s, n)[k]].raw)
  {
    var prev := DataLines(base, s, n - 1);
    if k < |prev| {
      DataLineAt(base, s, n - 1, k);
      assert DataLines(base, s, n)[k] == prev[k];
      assert NonEmptyIndices(s, n)[k] == NonEmptyIndices(s, n - 1)[k];
    } else {
      assert NonEmptyIndices(s, n)[k] == n - 1;
    }
  }

  /** The lines after the data: the configured window, then the alarm if it
      fired, its `hhmm` rewritten as `hh:mm`. */
  function AlarmLines(smartOn: bool, fromhr: string, frommin: string, tohr: string, tomin: string,
                      goneoff: string): seq<string>
  {
    if !smartOn then []
    else
      [fromhr + ":" + frommin + ",START", tohr + ":" + tomin + ",END"]
      + (if goneoff != "N" then [Substr(goneoff, 0, 2) + ":" + Substr(goneoff, 2, 2) + ",ALARM"] else [])
  }

  function ExportLines(base: int, s: seq<Slot>, smartOn: bool, fromhr: string, frommin: string,
                       tohr: string, tomin: string, goneoff: string): seq<string>
  {
    DataLines(base, s, |s|) + AlarmLines(smartOn, fromhr, frommin, tohr, tomin, goneoff)
  }

  /** Every line followed by the terminator `term`. */
  function Join(lines: seq<string>, term: string): string {
    if lines == [] then "" else lines[0] + term + Join(lines[1..], term)
  }

  lemma {:induction false} JoinAppend(xs: seq<string>, ys: seq<string>, term: string)
    ensures Join(xs + ys, term) == Join(xs, term) + Join(ys, term)
  {
    if xs != [] {
      assert (xs + ys)[0] == xs[0];
      assert (xs + ys)[1..] == xs[1..] + ys;
      JoinAppend(xs[1..], ys, term);
      assert Join(xs + ys, term) == xs[0] + term + (Join(xs[1..], term) + Join(ys, term));
    } else {
      assert xs + ys == ys;
    }
  }

  /** One line for each non-empty slot, two for the window when the smart
      alarm is on, and one more when the alarm fired. */
  lemma ExportLineCount(base: int, s: seq<Slot>, smartOn: bool, fromhr: string, frommin: string,
                        tohr: string, tomin: string, goneoff: string)
    ensures |ExportLines(base, s, smartOn, fromhr, frommin, tohr, tomin, goneoff)|
            == NonEmptyBefore(s, |s|) + (if smartOn then 2 else 0)
               + (if smartOn && goneoff != "N" then 1 else 0)
  {
  }

  /** An alarm reported as a clock reading `hhmm` is written in the same
      `hh:mm` form as the data lines. */
  lemma AlarmLineIsClockReading(t: int)
    ensures Substr(Hhmm(t), 0, 2) + ":" + Substr(Hhmm(t), 2, 2) == HhColonMm(t)
  {
    var h := Hhmm(t);
    var r := HhColonMm(t);
    assert Substr(h, 0, 2) == r[..2];
    assert Substr(h, 2, 2) == r[3..];
    assert r == r[..2] + ":" + r[3..];
  }

  lemma JoinSnoc(xs: seq<string>, line: string, term: string)
    ensures Join(xs + [line], term) == Join(xs, term) + line + term
  {
    JoinAppend(xs, [line], term);
    assert Join([line], term) == line + term + Join([], term);
  }

  /** Writing one more line after `prefix` and the lines so far. */
  lemma PrefixedSnoc(prefix: string, xs: seq<string>, line: string, term: string)
    ensures prefix + Join(xs + [line], term) == (prefix + Join(xs, term)) + line + term
  {
    JoinSnoc(xs, line, term);
  }

  /** The loop of `generateCopyLinkData`: one line per non-empty slot. */
  method WriteDataLines(base: int, splitup: seq<Slot>) returns (body: string, copyBody: string)
    ensures body == "&body=" + Join(DataLines(base, splitup, |splitup|), EncodedCrLf)
    ensures copyBody == Join(DataLines(base, splitup, |splitup|), CrLf)
  {
    var timePoint := base;
    body := "&body=";
    copyBody := "";
    ghost var written: seq<string> := [];
    var i := 0;
    while i < |splitup|
      invariant 0 <= i <= |splitup|
      invariant timePoint == SlotTime(base, splitup, i)
      invariant written == DataLines(base, splitup, i)
      invariant body == "&body=" + Join(written, EncodedCrLf)
      invariant copyBody == Join(written, CrLf)
    {
      if splitup[i].raw == "" {
        i := i + 1;
        continue;
      }
      var line := DataLine(timePoint, splitup[i].raw);
      PrefixedSnoc("&body=", written, line, EncodedCrLf);
      JoinSnoc(written, line, CrLf);
      body := body + line + EncodedCrLf;
      copyBody := copyBody + line + CrLf;
      written := written + [line];
      timePoint := timePoint + Interval;
      i := i + 1;
    }
  }

  /** The window and alarm lines of `generateCopyLinkData`. */
  method WriteAlarmLines(smartOn: bool, fromhr: string, frommin: string, tohr: string, tomin: string,
                         goneoff: string) returns (body: string, copyBody: string)
    ensures body == Join(AlarmLines(smartOn, fromhr, frommin, tohr, tomin, goneoff), EncodedCrLf)
    ensures copyBody == Join(AlarmLines(smartOn, fromhr, frommin, tohr, tomin, goneoff), CrLf)
  {
    body := WriteAlarmText(smartOn, fromhr, frommin, tohr, tomin, goneoff, EncodedCrLf);
    copyBody := WriteAlarmText(smartOn, fromhr, frommin, tohr, tomin, goneoff, CrLf);
  }

  /** The window and alarm lines, each ended by `term`. */
  method WriteAlarmText(smartOn: bool, fromhr: string, frommin: string, tohr: string, tomin: string,
                        goneoff: string, term: string) returns (text: string)
    ensures text == Join(AlarmLines(smartOn, fromhr, frommin, tohr, tomin, goneoff), term)
  {
    text := "";
    if smartOn {
      var start, end := fromhr + ":" + frommin + ",START", tohr + ":" + tomin + ",END";
      text := start + term + end + term;
      if goneoff != "N" {
        var alarm := Substr(goneoff, 0, 2) + ":" + Substr(goneoff, 2, 2) + ",ALARM";
        text := text + alarm + term;
        JoinThree(start, end, alarm, term);
      } else {
        JoinTwo(start, end, term);
      }
    }
  }

  lemma JoinOne(a: string, term: string)
    ensures Join([a], term) == a + term
  {
    assert [a][1..] == [];
    assert Join([a], term) == a + term + "";
  }

  lemma JoinTwo(a: string, b: string, term: string)
    ensures Join([a, b] + [], term) == a + term + b + term
  {
    assert [a, b] + [] == [a, b];
    assert [a, b][1..] == [b];
    JoinOne(b, term);
    assert Join([a, b], term) == a + term + (b + term);
  }

  lemma JoinThree(a: string, b: string, c: string, term: string)
    ensures Join([a, b] + [c], term) == a + term + b + term + c + term
  {
    assert ([a, b] + [c])[1..] == [b, c];
    assert [b, c][1..] == [c];
    JoinOne(c, term);
    assert Join([b, c], term) == b + term + (c + term);
    assert Join([a, b] + [c], term) == a + term + (b + term + (c + term));
  }

  /** `generateCopyLinkData`: the mail body and the copy box hold the same
      lines, with URL-encoded and with literal CR LF line ends. */
  method GenerateCopyLinkData(base: int, splitup: seq<Slot>, smartOn: bool, fromhr: string,
                              frommin: string, tohr: string, tomin: string, goneoff: string)
    returns (body: string, copyBody: string)
    ensures copyBody == Join(ExportLines(base, splitup, smartOn, fromhr, frommin, tohr, tomin, goneoff), CrLf)
    ensures body == "&body=" + Join(ExportLines(base, splitup, smartOn, fromhr, frommin, tohr, tomin, goneoff), EncodedCrLf)
  {
    body, copyBody := WriteDataLines(base, splitup);
    var b2, c2 := WriteAlarmLines(smartOn, fromhr, frommin, tohr, tomin, goneoff);
    var data := DataLines(base, splitup, |splitup|);
    var extra := AlarmLines(smartOn, fromhr, frommin, tohr, tomin, goneoff);
    JoinAppend(data, extra, EncodedCrLf);
    JoinAppend(data, extra, CrLf);
    body := body + b2;
    copyBody := copyBody + c2;
  }

  // ---------------------------------------------------------------------
  // Reading the copy box back

  predicate NoCr(s: string) {
    forall k :: 0 <= k < |s| ==> s[k] != '\r'
  }

  /** The index of the first CR in `s`, or `|s|` when there is none. */
  function FirstCr(s: string): (k: nat)
    ensures k <= |s| && NoCr(s[..k])
    ensures k < |s| ==> s[k] == '\r'
  {
    if s == [] then 0
    else if s[0] == '\r' then 0
    else
      var k := 1 + FirstCr(s[1..]);
      assert s[..k] == [s[0]] + s[1..][..k - 1];
      k
  }

  /** The lines of a CR LF terminated text, or `None` when the text does
      not end in CR LF or holds a CR not followed by LF. */
  function SplitCrLf(s: string): Option<seq<string>>
    decreases |s|
  {
    if s == [] then Some([])
    else
      var k := FirstCr(s);
      if k + 1 < |s| && s[k + 1] == '\n' then
        match SplitCrLf(s[k + 2..])
        case Some(rest) => Some([s[..k]] + rest)
        case None => None
      else None
  }

  lemma FirstCrOfLine(line: string, rest: string)
    requires NoCr(line)
    ensures FirstCr(line + CrLf + rest) == |line|
  {
    var s := line + CrLf + rest;
    assert s[|line|] == '\r';
    assert s[..|line|] == line;
  }

  /** Splitting the copy box at CR LF gives back the lines, as long as no
      line holds a CR of its own. */
  lemma {:induction false} SplitJoinRoundTrip(lines: seq<string>)
    requires forall i :: 0 <= i < |lines| ==> NoCr(lines[i])
    ensures SplitCrLf(Join(lines, CrLf)) == Some(lines)
  {
    if lines != [] {
      var rest := Join(lines[1..], CrLf);
      var s := lines[0] + CrLf + rest;
      FirstCrOfLine(lines[0], rest);
      assert s[..|lines[0]|] == lines[0];
      assert s[|lines[0]| + 2..] == rest;
      SplitJoinRoundTrip(lines[1..]);
      assert [lines[0]] + lines[1..] == lines;
    }
  }

  lemma HhColonMmNoCr(t: int)
    ensures NoCr(HhColonMm(t))
  {
    var r := HhColonMm(t);
    HhmmValue(t);
    forall k | 0 <= k < |r|
      ensures r[k] != '\r'
    {
      if k < 2 {
        assert r[k] == (r[..2] + r[3..])[k];
      } else if k > 2 {
        assert r[k] == (r[..2] + r[3..])[k - 1];
      }
    }
  }

  lemma NoCrConcat(a: string, b: string)
    requires NoCr(a) && NoCr(b)
    ensures NoCr(a + b)
  {
    forall k | 0 <= k < |a + b|
      ensures (a + b)[k] != '\r'
    {
      if k >= |a| {
        assert (a + b)[k] == b[k - |a|];
      }
    }
  }

  lemma DataLineNoCr(t: int, raw: string)
    requires NoCr(raw)
    ensures NoCr(DataLine(t, raw))
  {
    HhColonMmNoCr(t);
    NoCrConcat(HhColonMm(t), ",");
    NoCrConcat(HhColonMm(t) + ",", raw);
  }

  lemma {:induction false} DataLinesNoCr(base: int, s: seq<Slot>, n: nat)
    requires n <= |s|
    requires forall j :: 0 <= j < n ==> NoCr(s[j].raw)
    ensures forall i :: 0 <= i < |DataLines(base, s, n)| ==> NoCr(DataLines(base, s, n)[i])
  {
    if n > 0 {
      DataLinesNoCr(base, s, n - 1);
      if !IsEmpty(s[n - 1]) {
        DataLineNoCr(SlotTime(base, s, n - 1), s[n - 1].raw);
      }
    }
  }

  lemma NoCrJoin3(a: string, b: string, c: string)
    requires NoCr(a) && NoCr(b) && NoCr(c)
    ensures NoCr(a + ":" + b + c)
  {
    NoCrConcat(a, ":");
    NoCrConcat(a + ":", b);
    NoCrConcat(a + ":" + b, c);
  }

  lemma AlarmLinesNoCr(smartOn: bool, fromhr: string, frommin: string, tohr: string, tomin: string,
                       goneoff: string)
    requires NoCr(fromhr) && NoCr(frommin) && NoCr(tohr) && NoCr(tomin) && NoCr(goneoff)
    ensures var extra := AlarmLines(smartOn, fromhr, frommin, tohr, tomin, goneoff);
            forall i :: 0 <= i < |extra| ==> NoCr(extra[i])
  {
    if smartOn {
      NoCrJoin3(fromhr, frommin, ",START");
      NoCrJoin3(tohr, tomin, ",END");
      NoCrJoin3(Substr(goneoff, 0, 2), Substr(goneoff, 2, 2), ",ALARM");
    }
  }

  /** The copy box reads back as the export's lines whenever the slot texts,
      the window's hour and minute strings and the alarm string hold no CR. */
  lemma CopyBodyReadsBack(base: int, s: seq<Slot>, smartOn: bool, fromhr: string, frommin: string,
                          tohr: string, tomin: string, goneoff: string)
    requires forall j :: 0 <= j < |s| ==> NoCr(s[j].raw)
    requires NoCr(fromhr) && NoCr(frommin) && NoCr(tohr) && NoCr(tomin) && NoCr(goneoff)
    ensures SplitCrLf(Join(ExportLines(base, s, smartOn, fromhr, frommin, tohr, tomin, goneoff), CrLf))
            == Some(ExportLines(base, s, smartOn, fromhr, frommin, tohr, tomin, goneoff))
  {
    var data := DataLines(base, s, |s|);
    var extra := AlarmLines(smartOn, fromhr, frommin, tohr, tomin, goneoff);
    AlarmLinesNoCr(smartOn, fromhr, frommin, tohr, tomin, goneoff);
    DataLinesNoCr(base, s, |s|);
    var lines := data + extra;
    assert forall i :: 0 <= i < |lines| ==> NoCr(lines[i]) by {
      forall i | 0 <= i < |lines|
        ensures NoCr(lines[i])
      {
        if i >= |data| {
          assert lines[i] == extra[i - |data|];
        } else {
          assert lines[i] == data[i];
        }
      }
    }
    SplitJoinRoundTrip(lines);
  }
}

=== FILE: jstext.dfy ===
/** The few JavaScript string primitives the statistics engine leans on:
    relational comparison of strings, `String.prototype.substr`, and
    `parseInt(text, 10)`.  Strings are sequences of characters; comparison
    is by character code, which agrees with JavaScript's UTF-16 code-unit
    order for every character of the Basic Multilingual Plane. */
module JsText {
  import opened Wrappers

  /** `a <= b` on JavaScript strings: `a` is a prefix of `b`, or at the first
      position where they differ `a` has the smaller character. */
  predicate LexLe(a: string, b: string)
    decreases |a|
  {
    if |a| == 0 then true
    else if |b| == 0 then false
    else if a[0] < b[0] then true
    else if a[0] > b[0] then false
    else LexLe(a[1..], b[1..])
  }

  lemma {:induction false} LexLeTransitive(a: string, b: string, c: string)
    requires LexLe(a, b) && LexLe(b, c)
    ensures LexLe(a, c)
    decreases |a|
  {
    if |a| != 0 && |b| != 0 && |c| != 0 && a[0] == b[0] && b[0] == c[0] {
      LexLeTransitive(a[1..], b[1..], c[1..]);
    }
  }

  lemma {:induction false} LexLeReflexive(a: string)
    ensures LexLe(a, a)
    decreases |a|
  {
    if |a| != 0 {
      LexLeReflexive(a[1..]);
    }
  }

  lemma {:induction false} LexLeTotal(a: string, b: string)
    ensures LexLe(a, b) || LexLe(b, a)
    decreases |a|
  {
    if |a| != 0 && |b| != 0 && a[0] == b[0] {
      LexLeTotal(a[1..], b[1..]);
    }
  }

  lemma {:induction false} LexLeAntisymmetric(a: string, b: string)
    requires LexLe(a, b) && LexLe(b, a)
    ensures a == b
    decreases |a|
  {
    if |a| != 0 && |b| != 0 {
      LexLeAntisymmetric(a[1..], b[1..]);
      assert a == [a[0]] + a[1..] && b == [b[0]] + b[1..];
    }
  }

  // ---------------------------------------------------------------------
  // Decimal digits

  predicate IsDigit(c: char) {
    '0' <= c <= '9'
  }

  predicate AllDigits(s: string) {
    forall k :: 0 <= k < |s| ==> IsDigit(s[k])
  }

  function DigitValue(c: char): nat
    requires IsDigit(c)
  {
    (c as int) - ('0' as int)
  }

  function DigitChar(d: nat): (c: char)
    requires d < 10
    ensures IsDigit(c) && DigitValue(c) == d
  {
    (('0' as int) + d) as char
  }

  function Pow10(n: nat): (p: nat)
    ensures p >= 1
  {
    if n == 0 then 1 else 10 * Pow10(n - 1)
  }

  /** The number a string of decimal digits denotes, read most significant
      digit first (the accumulation `parseInt` performs). */
  function DecimalValue(s: string): nat
    requires AllDigits(s)
  {
    if |s| == 0 then 0
    else 10 * DecimalValue(s[..|s| - 1]) + DigitValue(s[|s| - 1])
  }

  lemma {:induction false} DecimalValueBound(s: string)
    requires AllDigits(s)
    ensures DecimalValue(s) < Pow10(|s|)
  {
    if |s| != 0 {
      DecimalValueBound(s[..|s| - 1]);
    }
  }

  /** Reading the leading digit off the front instead of the back. */
  lemma {:induction false} DecimalValueFront(s: string)
    requires AllDigits(s) && |s| > 0
    ensures DecimalValue(s) == DigitValue(s[0]) * Pow10(|s| - 1) + DecimalValue(s[1..])
  {
    if |s| > 1 {
      var init, tail := s[..|s| - 1], s[1..];
      DecimalValueFront(init);
      assert init[1..] == tail[..|tail| - 1];
      assert init[0] == s[0] && tail[|tail| - 1] == s[|s| - 1];
      var d0, p, x, dl := DigitValue(s[0]), Pow10(|s| - 2), DecimalValue(init[1..]), DigitValue(s[|s| - 1]);
      assert DecimalValue(s) == 10 * DecimalValue(init) + dl;
      assert DecimalValue(init) == d0 * p + x;
      assert DecimalValue(tail) == 10 * x + dl;
      assert Pow10(|s| - 1) == 10 * p;
      ShiftArith(d0, x, dl, p);
    }
  }

  lemma ShiftArith(a: int, b: int, d: int, p: int)
    ensures 10 * (a * p + b) + d == a * (10 * p) + (10 * b + d)
  {
  }

  /** Numbers written with a leading digit in front of `p`-bounded rests
      compare by leading digit first, then by rest. */
  lemma LeadingDigitOrder(da: nat, db: nat, p: nat, x: nat, y: nat)
    requires x < p && y < p
    ensures da * p + x <= db * p + y <==> da < db || (da == db && x <= y)
  {
    if da < db {
      assert da * p + x < (da + 1) * p <= db * p;
    } else if da > db {
      assert db * p + y < (db + 1) * p <= da * p;
    }
  }

  /** On digit strings of one length, JavaScript's string order is the
      numeric order of the numbers they denote. */
  lemma {:induction false} LexLeDigitsIsNumeric(a: string, b: string)
    requires AllDigits(a) && AllDigits(b) && |a| == |b|
    ensures LexLe(a, b) <==> DecimalValue(a) <= DecimalValue(b)
    decreases |a|
  {
    if |a| != 0 {
      var a', b' := a[1..], b[1..];
      var p := Pow10(|a| - 1);
      var da, db := DigitValue(a[0]), DigitValue(b[0]);
      var x, y := DecimalValue(a'), DecimalValue(b');
      DecimalValueFront(a);
      DecimalValueFront(b);
      DecimalValueBound(a');
      DecimalValueBound(b');
      LexLeDigitsIsNumeric(a', b');
      assert LexLe(a, b) <==> da < db || (da == db && LexLe(a', b'));
      LeadingDigitOrder(da, db, p, x, y);
    }
  }

  // ---------------------------------------------------------------------
  // substr

  /** `s.substr(start, len)` for non-negative arguments: at most `len`
      characters from `start`, clipped at the end of the string. */
  function Substr(s: string, start: nat, len: nat): (r: string)
    ensures |r| <= len
    ensures start + len <= |s| ==> r == s[start..start + len]
    ensures start >= |s| ==> r == ""
  {
    if start >= |s| then ""
    else if start + len <= |s| then s[start..start + len]
    else s[start..]
  }

  // ---------------------------------------------------------------------
  // parseInt(text, 10)

  /** The characters `parseInt` skips before the number: the ECMAScript
      white-space and line-terminator characters. */
  predicate IsStrWhiteSpace(c: char) {
    c == '\t' || c == '\n' || c == '\U{B}' || c == '\U{C}' || c == '\r' || c == ' '
    || c == '\U{A0}' || c == '\U{1680}' || ('\U{2000}' <= c <= '\U{200A}')
    || c == '\U{2028}' || c == '\U{2029}' || c == '\U{202F}' || c == '\U{205F}'
    || c == '\U{3000}' || c == '\U{FEFF}'
  }

  function TrimStart(s: string): (r: string)
    ensures |r| <= |s| && r == s[|s| - |r|..]
    ensures |r| > 0 ==> !IsStrWhiteSpace(r[0])
  {
    if |s| > 0 && IsStrWhiteSpace(s[0]) then TrimStart(s[1..]) else s
  }

  /** The longest prefix of `s` made of decimal digits. */
  function DigitPrefix(s: string): (r: string)
    ensures AllDigits(r) && |r| <= |s| && r == s[..|r|]
    ensures |r| < |s| ==> !IsDigit(s[|r|])
  {
    if |s| > 0 && IsDigit(s[0]) then [s[0]] + DigitPrefix(s[1..]) else ""
  }

  /** The text left once leading white space and one sign are removed. */
  function Unsigned(s: string): string {
    var t := TrimStart(s);
    if |t| > 0 && (t[0] == '-' || t[0] == '+') then t[1..] else t
  }

  predicate IsNegated(s: string) {
    var t := TrimStart(s);
    |t| > 0 && t[0] == '-'
  }

  /** `parseInt(s, 10)`; None stands for NaN. */
  function ParseInt(s: string): (r: Option<int>)
    ensures r.None? <==> |DigitPrefix(Unsigned(s))| == 0
    ensures r.Some? && !IsNegated(s) ==> r.value >= 0
    ensures s == "" ==> r.None?
  {
    var z := DigitPrefix(Unsigned(s));
    if |z| == 0 then None
    else if IsNegated(s) then Some(0 - DecimalValue(z))
    else Some(DecimalValue(z))
  }

  // ---------------------------------------------------------------------
  // The decimal text the device writes for a reading

  function NatToDecimal(n: nat): (r: string)
    ensures AllDigits(r) && |r| > 0
  {
    if n < 10 then [DigitChar(n)] else NatToDecimal(n / 10) + [DigitChar(n % 10)]
  }

  function IntToDecimal(n: int): string {
    if n < 0 then "-" + NatToDecimal(-n) else NatToDecimal(n)
  }

  lemma {:induction false} NatToDecimalValue(n: nat)
    ensures DecimalValue(NatToDecimal(n)) == n
  {
    if n >= 10 {
      NatToDecimalValue(n / 10);
      var r := NatToDecimal(n);
      assert r[..|r| - 1] == NatToDecimal(n / 10);
    }
  }

  lemma {:induction false} DigitPrefixOfDigits(ds: string, rest: string)
    requires AllDigits(ds)
    requires |rest| == 0 || !IsDigit(rest[0])
    ensures DigitPrefix(ds + rest) == ds
  {
    if |ds| > 0 {
      assert (ds + rest)[1..] == ds[1..] + rest;
      DigitPrefixOfDigits(ds[1..], rest);
      assert ds == [ds[0]] + ds[1..];
    }
  }

  /** `parseInt` reads back any integer written in decimal, whatever
      non-digit text follows it. */
  lemma ParseIntOfDecimal(n: int, rest: string)
    requires |rest| == 0 || !IsDigit(rest[0])
    ensures ParseInt(IntToDecimal(n) + rest) == Some(n)
  {
    var m: nat := if n < 0 then -n else n;
    var ds := NatToDecimal(m);
    NatToDecimalValue(m);
    DigitPrefixOfDigits(ds, rest);
    if n < 0 {
      assert IntToDecimal(n) + rest == ['-'] + (ds + rest);
      ParseIntOfMinus(ds + rest, ds);
    } else {
      assert IntToDecimal(n) + rest == ds + rest;
      ParseIntOfDigits(ds + rest, ds);
    }
  }

  lemma ParseIntOfMinus(u: string, ds: string)
    requires DigitPrefix(u) == ds && |ds| > 0
    ensures ParseInt(['-'] + u) == Some(0 - DecimalValue(ds))
  {
    var s := ['-'] + u;
    assert s[1..] == u;
    assert !IsStrWhiteSpace('-');
    assert TrimStart(s) == s;
    assert Unsigned(s) == u && IsNegated(s);
  }

  lemma ParseIntOfDigits(u: string, ds: string)
    requires DigitPrefix(u) == ds && |ds| > 0
    ensures ParseInt(u) == Some(DecimalValue(ds))
  {
    assert IsDigit(u[0]);
    assert !IsStrWhiteSpace(u[0]);
    assert TrimStart(u) == u;
    assert Unsigned(u) == u && !IsNegated(u);
  }
}

=== FILE: samples.dfy ===
/** The `!`-split sample array, the instant each slot is drawn at, the
    activity bands, and the overlay markers the passes emit. */
module Samples {
  import opened Wrappers
  import opened JsText
  import opened Clock

  // ---------------------------------------------------------------------
  // Slots and their time axis

  /** One element of `graph.split("!")`: its text, and `parseInt(text, 10)`
      (None for NaN).  Empty text marks a slot every pass skips. */
  datatype Slot = Slot(raw: string, val: Option<int>)

  /** The slots of a split sample string, each parsed once. */
  function ParseSlots(splitup: seq<string>): (r: seq<Slot>)
    ensures |r| == |splitup|
    ensures forall i :: 0 <= i < |r| ==> r[i].raw == splitup[i] && r[i].val == ParseInt(splitup[i])
    ensures forall i :: 0 <= i < |r| && r[i].raw == "" ==> r[i].val.None?
  {
    seq(|splitup|, i requires 0 <= i < |splitup| => Slot(splitup[i], ParseInt(splitup[i])))
  }

  predicate IsEmpty(slot: Slot) {
    slot.raw == ""
  }

  /** How many of the first `i` slots are non-empty.  Empty slots are
      skipped without advancing the clock, so this is the number of
      intervals elapsed before slot `i` is drawn. */
  function NonEmptyBefore(s: seq<Slot>, i: nat): (c: nat)
    requires i <= |s|
    ensures c <= i
  {
    if i == 0 then 0
    else NonEmptyBefore(s, i - 1) + (if !IsEmpty(s[i - 1]) then 1 else 0)
  }

  /** The instant at which slot `i` starts, on the axis that advances one
      interval per non-empty slot (the axis of the series builder, the
      ignore pass, the statistics walk and the export). */
  function SlotTime(base: int, s: seq<Slot>, i: nat): int
    requires i <= |s|
  {
    base + Interval * NonEmptyBefore(s, i)
  }

  /** A later slot starts at least one interval after a non-empty one. */
  lemma {:induction false} SlotTimeAdvances(base: int, s: seq<Slot>, i: nat, k: nat)
    requires i < k <= |s| && !IsEmpty(s[i])
    ensures SlotTime(base, s, i) + Interval <= SlotTime(base, s, k)
    decreases k
  {
    if k > i + 1 {
      SlotTimeAdvances(base, s, i, k - 1);
    }
  }

  /** Clock time never runs backwards along the slots. */
  lemma {:induction false} SlotTimeMonotone(base: int, s: seq<Slot>, i: nat, k: nat)
    requires i <= k <= |s|
    ensures SlotTime(base, s, i) <= SlotTime(base, s, k)
    decreases k
  {
    if k > i {
      SlotTimeMonotone(base, s, i, k - 1);
    }
  }

  /** The positions of the non-empty slots among the first `n`, in order. */
  function NonEmptyIndices(s: seq<Slot>, n: nat): (r: seq<nat>)
    requires n <= |s|
    ensures |r| == NonEmptyBefore(s, n)
    ensures forall k :: 0 <= k < |r| ==> r[k] < n && !IsEmpty(s[r[k]]) && NonEmptyBefore(s, r[k]) == k
  {
    if n == 0 then []
    else NonEmptyIndices(s, n - 1) + (if !IsEmpty(s[n - 1]) then [n - 1] else [])
  }

  /** Conversely, every non-empty slot is listed, at the position given by
      the number of non-empty slots before it. */
  lemma {:induction false} NonEmptyIndicesComplete(s: seq<Slot>, n: nat, j: nat)
    requires j < n <= |s| && !IsEmpty(s[j])
    ensures NonEmptyBefore(s, j) < NonEmptyBefore(s, n)
    ensures NonEmptyIndices(s, n)[NonEmptyBefore(s, j)] == j
  {
    if j < n - 1 {
      NonEmptyIndicesComplete(s, n - 1, j);
    }
  }

  /** The k-th non-empty slot is drawn k intervals after the base instant,
      so consecutive samples are exactly one interval apart. */
  lemma NonEmptySlotTimes(base: int, s: seq<Slot>, k: nat)
    requires k < NonEmptyBefore(s, |s|)
    ensures SlotTime(base, s, NonEmptyIndices(s, |s|)[k]) == base + Interval * k
  {
  }

  /** `parseInt(splitup[j], 10)` for any index `j`: an index outside the
      array reads `undefined`, which parses to NaN. */
  function ReadValue(s: seq<Slot>, j: int): Option<int> {
    if 0 <= j < |s| then s[j].val else None
  }

  /** Whether the slot at any index `j` is empty text; an index outside the array is not. */
  predicate ReadsEmpty(s: seq<Slot>, j: int) {
    0 <= j < |s| && IsEmpty(s[j])
  }

  // ---------------------------------------------------------------------
  // Bands

  datatype Band = Deep | Light | Awake | Ignored

  /** The sentinels: -1 is "no reading", -2 an interval the user chose to
      ignore. */
  predicate IsSentinel(v: int) {
    v == -1 || v == -2
  }

  /** The band the count loop puts a parsed value in.  Every comparison
      with NaN is false, so NaN falls through to `deep`. */
  function Classify(v: Option<int>): (b: Band)
    ensures b == Ignored <==> v.Some? && IsSentinel(v.value)
    ensures b == Awake <==> v.Some? && v.value > MConst.awakeAbove
    ensures b == Light <==> v.Some? && MConst.lightAbove < v.value <= MConst.awakeAbove
    ensures b == Deep <==> v.None? || (v.value <= MConst.lightAbove && !IsSentinel(v.value))
  {
    match v
    case None => Deep
    case Some(n) =>
      if IsSentinel(n) then Ignored
      else if n > MConst.awakeAbove then Awake
      else if n > MConst.lightAbove then Light
      else Deep
  }

  /** A slot that keeps the sleeper "asleep" in the statistics walk: a
      parsed value that is no sentinel and at most the awake threshold. */
  predicate Qualifies(slot: Slot) {
    !IsEmpty(slot) &&
    match slot.val
    case Some(v) => !IsSentinel(v) && v <= MConst.awakeAbove
    case None => false
  }

  // ---------------------------------------------------------------------
  // Overlay

  /** The `name` of a vertical line on the chart. */
  datatype Kind = Ignore | Start | End | Begin | EndStop

  /** One overlay object: its kind and the instant it is drawn at; the
      styling attributes are constants and are not modelled. */
  datatype Marker = Marker(name: Kind, x: int)

  /** `canvasOverlayConf`. */
  datatype Overlay = Overlay(show: bool, objects: seq<Marker>)
}

=== FILE: series.dfy ===
/** The two passes that only look at each slot on its own: the chart
    series builder and the ignore-marker pass. */
module Series {
  import opened Wrappers
  import opened JsText
  import opened Clock
  import opened Samples

  /** The y value of a chart point: a reading, NaN, or `null`, which breaks
      the plotted line. */
  datatype PlotValue = Number(n: int) | NotANumber | Null

  /** One `[instant, value]` element of the series. */
  datatype Point = Point(x: int, y: PlotValue)

  /** The value a point is given: negative readings become null, and NaN,
      which is not below zero, stays NaN. */
  function Plotted(v: Option<int>): PlotValue {
    match v
    case None => NotANumber
    case Some(n) => if n < 0 then Null else Number(n)
  }

  /** `buildGraphDataSet`: `more` is a sparse array with one point per
      non-empty slot, at that slot's own index. */
  method BuildGraphDataSet(base: int, splitup: seq<Slot>) returns (more: map<nat, Point>)
    ensures forall i: nat :: i in more <==> i < |splitup| && !IsEmpty(splitup[i])
    ensures forall i :: i in more ==>
              more[i].x == base + Interval * NonEmptyBefore(splitup, i)
    ensures forall i :: i in more ==>
              more[i].y == (match splitup[i].val
                            case None => NotANumber
                            case Some(v) => if v < 0 then Null else Number(v))
  {
    more := map[];
    var startPoint := base;
    for i := 0 to |splitup|
      invariant startPoint == SlotTime(base, splitup, i)
      invariant forall j: nat :: j in more <==> j < i && !IsEmpty(splitup[j])
      invariant forall j :: j in more ==> more[j] == Point(SlotTime(base, splitup, j), Plotted(splitup[j].val))
    {
      if splitup[i].raw == "" {
        continue;
      }
      var element := Point(startPoint, Plotted(splitup[i].val));
      more := more[i := element];
      startPoint := startPoint + Interval;
    }
  }

  /** A slot the ignore pass marks: non-empty and parsing to -2. */
  predicate IsIgnoreSlot(slot: Slot) {
    !IsEmpty(slot) && slot.val == Some(-2)
  }

  /** The positions among the first `n` slots that carry the ignore
      sentinel, in increasing order. */
  function IgnoreIndices(s: seq<Slot>, n: nat): (r: seq<nat>)
    requires n <= |s|
    ensures forall k :: 0 <= k < |r| ==> r[k] < n && IsIgnoreSlot(s[r[k]])
    ensures forall k1, k2 :: 0 <= k1 < k2 < |r| ==> r[k1] < r[k2]
  {
    if n == 0 then []
    else IgnoreIndices(s, n - 1) + (if IsIgnoreSlot(s[n - 1]) then [n - 1] else [])
  }

  /** Every ignore slot among the first `n` is listed. */
  lemma {:induction false} IgnoreIndicesComplete(s: seq<Slot>, n: nat, j: nat)
    requires j < n <= |s| && IsIgnoreSlot(s[j])
    ensures j in IgnoreIndices(s, n)
  {
    if j < n - 1 {
      IgnoreIndicesComplete(s, n - 1, j);
    }
  }

  /** On the slots of the split sample text, the ignore pass lists exactly
      the slots whose text is non-empty and parses to -2; in particular it
      lists every slot the device wrote as the sentinel "-2". */
  lemma IgnoreIndicesOfTexts(texts: seq<string>, j: nat)
    requires j < |texts|
    ensures j in IgnoreIndices(ParseSlots(texts), |texts|) <==> texts[j] != "" && ParseInt(texts[j]) == Some(-2)
    ensures texts[j] == IntToDecimal(-2) ==> j in IgnoreIndices(ParseSlots(texts), |texts|)
  {
    var s := ParseSlots(texts);
    var idx := IgnoreIndices(s, |texts|);
    if j in idx {
      var k :| 0 <= k < |idx| && idx[k] == j;
      assert IsIgnoreSlot(s[idx[k]]);
    }
    if texts[j] == IntToDecimal(-2) {
      ParseIntOfDecimal(-2, "");
      assert IntToDecimal(-2) + "" == IntToDecimal(-2);
    }
    if texts[j] != "" && ParseInt(texts[j]) == Some(-2) {
      IgnoreIndicesComplete(s, |texts|, j);
    }
  }

  /** The markers the ignore pass adds for the first `n` slots. */
  function IgnoreMarkers(base: int, s: seq<Slot>, n: nat): (r: seq<Marker>)
    requires n <= |s|
    ensures |r| == |IgnoreIndices(s, n)|
  {
    if n == 0 then []
    else
      IgnoreMarkers(base, s, n - 1)
      + (if IsIgnoreSlot(s[n - 1]) then [Marker(Ignore, SlotTime(base, s, n - 1))] else [])
  }

  /** The k-th ignore marker sits at the instant of the k-th ignore slot. */
  lemma {:induction false} IgnoreMarkerAt(base: int, s: seq<Slot>, n: nat, k: nat)
    requires n <= |s| && k < |IgnoreIndices(s, n)|
    ensures IgnoreMarkers(base, s, n)[k] == Marker(Ignore, SlotTime(base, s, IgnoreIndices(s, n)[k]))
  {
    var prev := IgnoreIndices(s, n - 1);
    if k < |prev| {
      IgnoreMarkerAt(base, s, n - 1, k);
      assert IgnoreIndices(s, n)[k] == prev[k];
      assert IgnoreMarkers(base, s, n)[k] == IgnoreMarkers(base, s, n - 1)[k];
    }
  }

  /** `populateIgnore`: one "ignore" line per -2 slot, in slot order, at the
      instant the series builder gives that slot; existing objects are kept
      and `show` is raised only when a line is added. */
  method PopulateIgnore(base: int, conf: Overlay, splitup: seq<Slot>) returns (r: Overlay)
    ensures var idx := IgnoreIndices(splitup, |splitup|);
            && |r.objects| == |conf.objects| + |idx|
            && r.objects[..|conf.objects|] == conf.objects
            && (forall k :: 0 <= k < |idx| ==>
                  r.objects[|conf.objects| + k] == Marker(Ignore, SlotTime(base, splitup, idx[k])))
    ensures r.show == (conf.show || exists j :: 0 <= j < |splitup| && IsIgnoreSlot(splitup[j]))
  {
    r := conf;
    var startPoint := base;
    var i := 0;
    while i < |splitup|
      invariant 0 <= i <= |splitup|
      invariant IgnoredTo(base, conf, splitup, i, r, startPoint)
    {
      r, startPoint := IgnoreSlot(base, conf, splitup, i, r, startPoint);
      i := i + 1;
    }
    IgnoredAll(base, conf, splitup, r, startPoint);
  }

  /** The state of the ignore pass after its first `i` slots. */
  predicate IgnoredTo(base: int, conf: Overlay, s: seq<Slot>, i: nat, r: Overlay, startPoint: int)
    requires i <= |s|
  {
    && startPoint == SlotTime(base, s, i)
    && r.objects == conf.objects + IgnoreMarkers(base, s, i)
    && r.show == (conf.show || |r.objects| > |conf.objects|)
  }

  /** One slot of the ignore pass. */
  method IgnoreSlot(ghost base: int, ghost conf: Overlay, splitup: seq<Slot>, i: nat,
                    r: Overlay, startPoint: int) returns (next: Overlay, nextPoint: int)
    requires i < |splitup| && IgnoredTo(base, conf, splitup, i, r, startPoint)
    ensures IgnoredTo(base, conf, splitup, i + 1, next, nextPoint)
  {
    next, nextPoint := r, startPoint;
    if splitup[i].raw != "" {
      if splitup[i].val == Some(-2) {
        next := Overlay(true, r.objects + [Marker(Ignore, startPoint)]);
      }
      nextPoint := startPoint + Interval;
    }
  }

  /** What the finished pass has produced. */
  lemma IgnoredAll(base: int, conf: Overlay, s: seq<Slot>, r: Overlay, startPoint: int)
    requires IgnoredTo(base, conf, s, |s|, r, startPoint)
    ensures var idx := IgnoreIndices(s, |s|);
            && |r.objects| == |conf.objects| + |idx|
            && r.objects[..|conf.objects|] == conf.objects
            && (forall k :: 0 <= k < |idx| ==>
                  r.objects[|conf.objects| + k] == Marker(Ignore, SlotTime(base, s, idx[k])))
    ensures r.show == (conf.show || exists j :: 0 <= j < |s| && IsIgnoreSlot(s[j]))
  {
    IgnoreMarkersLayout(base, s, conf.objects);
    IgnoreIndicesEmpty(s, |s|);
  }

  /** The objects after the pass: the old ones, then the k-th ignore
      marker at the instant of the k-th ignore slot. */
  lemma IgnoreMarkersLayout(base: int, s: seq<Slot>, objects: seq<Marker>)
    ensures var idx := IgnoreIndices(s, |s|);
            var r := objects + IgnoreMarkers(base, s, |s|);
            && |r| == |objects| + |idx|
            && r[..|objects|] == objects
            && (forall k :: 0 <= k < |idx| ==> r[|objects| + k] == Marker(Ignore, SlotTime(base, s, idx[k])))
  {
    var idx := IgnoreIndices(s, |s|);
    var r := objects + IgnoreMarkers(base, s, |s|);
    forall k | 0 <= k < |idx|
      ensures r[|objects| + k] == Marker(Ignore, SlotTime(base, s, idx[k]))
    {
      IgnoreMarkerAt(base, s, |s|, k);
    }
  }

  lemma IgnoreIndicesEmpty(s: seq<Slot>, n: nat)
    requires n <= |s|
    ensures |IgnoreIndices(s, n)| > 0 <==> exists j :: 0 <= j < n && IsIgnoreSlot(s[j])
  {
    var idx := IgnoreIndices(s, n);
    if |idx| > 0 {
      assert IsIgnoreSlot(s[idx[0]]);
    }
    if j :| 0 <= j < n && IsIgnoreSlot(s[j]) {
      IgnoreIndicesComplete(s, n, j);
    }
  }
}

=== FILE: stats.dfy ===
/** The sleep statistics (`calculateStats`): a walk that finds where sleep
    begins and ends, then a count of the slots in between by band. */
module Stats {
  import opened Wrappers
  import opened JsText
  import opened Clock
  import opened Samples

  // ---------------------------------------------------------------------
  // Reference definitions for the walk

  /** The walk's alarm test on slot `i`: the alarm fired (`goneoff` is not
      'N') and its `hhmm` falls in the slot's bucket. */
  predicate GoneoffHit(base: int, s: seq<Slot>, goneoff: string, i: nat)
    requires i < |s|
  {
    !IsEmpty(s[i]) && goneoff != "N" && BucketMatches(SlotTime(base, s, i), goneoff)
  }

  /** The first slot among the first `n` whose bucket holds the fired alarm. */
  function FirstGoneoffHit(base: int, s: seq<Slot>, goneoff: string, n: nat): (r: Option<nat>)
    requires n <= |s|
    ensures r.Some? ==> r.value < n
  {
    if n == 0 then None
    else
      var f := FirstGoneoffHit(base, s, goneoff, n - 1);
      if f.Some? then f
      else if GoneoffHit(base, s, goneoff, n - 1) then Some(n - 1)
      else None
  }

  /** The slot found is the first to hold the alarm; when none is found, no
      slot holds it. */
  lemma {:induction false} FirstGoneoffHitIsFirst(base: int, s: seq<Slot>, goneoff: string, n: nat)
    requires n <= |s|
    ensures var r := FirstGoneoffHit(base, s, goneoff, n);
            && (r.Some? ==> GoneoffHit(base, s, goneoff, r.value))
            && (r.Some? ==> forall j :: 0 <= j < r.value ==> !GoneoffHit(base, s, goneoff, j))
            && (r.None? ==> forall j :: 0 <= j < n ==> !GoneoffHit(base, s, goneoff, j))
  {
    if n > 0 {
      FirstGoneoffHitIsFirst(base, s, goneoff, n - 1);
    }
  }

  lemma {:induction false} FirstGoneoffHitStable(base: int, s: seq<Slot>, goneoff: string, m: nat, n: nat)
    requires m <= n <= |s| && FirstGoneoffHit(base, s, goneoff, m).Some?
    ensures FirstGoneoffHit(base, s, goneoff, n) == FirstGoneoffHit(base, s, goneoff, m)
    decreases n
  {
    if n > m {
      FirstGoneoffHitStable(base, s, goneoff, m, n - 1);
    }
  }

  /** The first qualifying slot among the first `n`. */
  function FirstQualifying(s: seq<Slot>, n: nat): (r: Option<nat>)
    requires n <= |s|
    ensures r.Some? ==> r.value < n && Qualifies(s[r.value])
    ensures r.Some? ==> forall j :: 0 <= j < r.value ==> !Qualifies(s[j])
    ensures r.None? ==> forall j :: 0 <= j < n ==> !Qualifies(s[j])
  {
    if n == 0 then None
    else
      var f := FirstQualifying(s, n - 1);
      if f.Some? then f
      else if Qualifies(s[n - 1]) then Some(n - 1)
      else None
  }

  /** The last qualifying slot among the first `n`. */
  function LastQualifying(s: seq<Slot>, n: nat): (r: Option<nat>)
    requires n <= |s|
    ensures r.Some? ==> r.value < n && Qualifies(s[r.value])
    ensures r.Some? ==> forall j :: r.value < j < n ==> !Qualifies(s[j])
    ensures r.None? ==> forall j :: 0 <= j < n ==> !Qualifies(s[j])
  {
    if n == 0 then None
    else if Qualifies(s[n - 1]) then Some(n - 1)
    else LastQualifying(s, n - 1)
  }

  /** The start of a slot, when there is one. */
  function StartOf(base: int, s: seq<Slot>, i: Option<nat>): Option<int>
    requires i.Some? ==> i.value < |s|
  {
    match i
    case Some(k) => Some(SlotTime(base, s, k))
    case None => None
  }

  /** The end of a slot (the start of the interval after it), when there is one. */
  function EndOf(base: int, s: seq<Slot>, i: Option<nat>): Option<int>
    requires i.Some? ==> i.value < |s|
  {
    match i
    case Some(k) => Some(SlotTime(base, s, k) + Interval)
    case None => None
  }

  /** The walk's outcome: `tbegin`, `ibegin`, `tends`, `iends`. */
  datatype Bounds = Bounds(tbegin: Option<int>, ibegin: Option<nat>, tends: Option<int>, iends: Option<nat>)

  /** Where sleep begins and ends.  Sleep begins at the first qualifying
      slot met before the walk stops; it ends where the fired alarm falls,
      if some slot's bucket holds it, and otherwise at the end of the last
      qualifying slot. */
  function SleepBounds(base: int, s: seq<Slot>, goneoff: string): Bounds {
    var stop := FirstGoneoffHit(base, s, goneoff, |s|);
    match stop
    case Some(k) =>
      var ibegin := FirstQualifying(s, k);
      Bounds(StartOf(base, s, ibegin), ibegin,
             Some(ReturnAbsoluteMatch(SlotTime(base, s, k), SlotTime(base, s, k) + Interval, goneoff)), stop)
    case None =>
      var ibegin, iends := FirstQualifying(s, |s|), LastQualifying(s, |s|);
      Bounds(StartOf(base, s, ibegin), ibegin, EndOf(base, s, iends), iends)
  }

  /** Sleep begins at the first qualifying slot, and no slot up to it holds
      the fired alarm. */
  lemma SleepBegins(base: int, s: seq<Slot>, goneoff: string)
    ensures var b := SleepBounds(base, s, goneoff);
            && (b.tbegin.Some? <==> b.ibegin.Some?)
            && (b.ibegin.Some? ==>
                  && b.ibegin.value < |s| && Qualifies(s[b.ibegin.value])
                  && b.tbegin.value == SlotTime(base, s, b.ibegin.value)
                  && (forall j :: 0 <= j < b.ibegin.value ==> !Qualifies(s[j]))
                  && (forall j :: 0 <= j <= b.ibegin.value ==> !GoneoffHit(base, s, goneoff, j)))
  {
    FirstGoneoffHitIsFirst(base, s, goneoff, |s|);
  }

  /** Sleep ends in the first slot holding the fired alarm, at the minute the
      search finds; failing that, at the end of the last qualifying slot. */
  lemma SleepEnds(base: int, s: seq<Slot>, goneoff: string)
    ensures var b := SleepBounds(base, s, goneoff);
            && (b.tends.Some? <==> b.iends.Some?)
            && (b.iends.Some? ==> b.iends.value < |s| && !IsEmpty(s[b.iends.value]))
    ensures var b := SleepBounds(base, s, goneoff);
            var stop := FirstGoneoffHit(base, s, goneoff, |s|);
            stop.Some? ==>
              && b.iends == stop
              && b.tends == Some(ReturnAbsoluteMatch(SlotTime(base, s, stop.value),
                                                     SlotTime(base, s, stop.value) + Interval, goneoff))
    ensures var b := SleepBounds(base, s, goneoff);
            var stop := FirstGoneoffHit(base, s, goneoff, |s|);
            stop.None? ==>
              && b.iends == LastQualifying(s, |s|)
              && (b.iends.Some? ==> b.tends.value == SlotTime(base, s, b.iends.value) + Interval)
  {
    FirstGoneoffHitIsFirst(base, s, goneoff, |s|);
  }

  /** When sleep begins it also ends, no earlier than the slot it began in
      and strictly later in time. */
  lemma SleepBoundsOrdered(base: int, s: seq<Slot>, goneoff: string)
    ensures var b := SleepBounds(base, s, goneoff);
            b.ibegin.Some? ==>
              && b.iends.Some? && b.ibegin.value <= b.iends.value
              && b.tbegin.Some? && b.tends.Some? && b.tbegin.value < b.tends.value
  {
    var b := SleepBounds(base, s, goneoff);
    var stop := FirstGoneoffHit(base, s, goneoff, |s|);
    if b.ibegin.Some? {
      var ib := b.ibegin.value;
      if stop.Some? {
        var k := stop.value;
        SlotTimeAdvances(base, s, ib, k);
      } else {
        var e := LastQualifying(s, |s|);
        assert e.Some? && ib <= e.value;
        SlotTimeMonotone(base, s, ib, e.value);
      }
    }
  }

  // ---------------------------------------------------------------------
  // Reference definitions for the count

  datatype Counts = Counts(deep: nat, light: nat, awake: nat, ignore: nat)

  /** How many indices `j` in [lo, hi) read a non-empty slot whose value
      the count loop puts in `band`. */
  function BandCount(s: seq<Slot>, lo: int, hi: int, band: Band): nat
    decreases hi - lo
  {
    if hi <= lo then 0 else BandCount(s, lo, hi - 1, band) + CountedAs(s, hi - 1, band)
  }

  /** 1 when index `j` reads a non-empty slot whose value falls in `band`. */
  function CountedAs(s: seq<Slot>, j: int, band: Band): nat {
    if !ReadsEmpty(s, j) && Classify(ReadValue(s, j)) == band then 1 else 0
  }

  /** How many indices in [lo, hi) read a non-empty slot. */
  function ReadCount(s: seq<Slot>, lo: int, hi: int): nat
    decreases hi - lo
  {
    if hi <= lo then 0
    else ReadCount(s, lo, hi - 1) + (if !ReadsEmpty(s, hi - 1) then 1 else 0)
  }

  /** Every slot read lands in exactly one band. */
  lemma {:induction false} BandsPartition(s: seq<Slot>, lo: int, hi: int)
    ensures BandCount(s, lo, hi, Deep) + BandCount(s, lo, hi, Light)
            + BandCount(s, lo, hi, Awake) + BandCount(s, lo, hi, Ignored) == ReadCount(s, lo, hi)
    decreases hi - lo
  {
    if hi > lo {
      BandsPartition(s, lo, hi - 1);
    }
  }

  /** Within the array, the slots read are the non-empty ones, so their
      number is the time the axis advances over [lo, hi). */
  lemma {:induction false} ReadCountSpansAxis(base: int, s: seq<Slot>, lo: nat, hi: nat)
    requires lo <= hi <= |s|
    ensures Interval * ReadCount(s, lo, hi) == SlotTime(base, s, hi) - SlotTime(base, s, lo)
    decreases hi - lo
  {
    if hi > lo {
      ReadCountSpansAxis(base, s, lo, hi - 1);
    }
  }

  /** JavaScript's `ToNumber` on an index that may be `null`. */
  function JsNumber(i: Option<nat>): nat {
    match i
    case Some(n) => n
    case None => 0
  }

  /** What the count loop tallies: every slot from `ibegin` through `iends`,
      both included.  When `ibegin` is null the loop still runs, since a
      null bound compares as 0; its first pass reads the array at a null
      index, gets undefined, which parses to NaN and is counted `deep`,
      and the increment then moves on from index 1. */
  function Tally(s: seq<Slot>, ibegin: Option<nat>, iends: Option<nat>): Counts {
    var hi := JsNumber(iends) + 1;
    match ibegin
    case Some(b) =>
      Counts(BandCount(s, b, hi, Deep), BandCount(s, b, hi, Light),
             BandCount(s, b, hi, Awake), BandCount(s, b, hi, Ignored))
    case None =>
      Counts(1 + BandCount(s, 1, hi, Deep), BandCount(s, 1, hi, Light),
             BandCount(s, 1, hi, Awake), BandCount(s, 1, hi, Ignored))
  }

  function Total(c: Counts): nat {
    c.deep + c.light + c.awake + c.ignore
  }

  // ---------------------------------------------------------------------
  // The walk and the count, as the page runs them

  /** The walk's alarm test, isolated: the alarm fired (its reading is not
      "N") and its reading lies within the slot's bucket. */
  method TestGoneoff(goneoff: string, t1: int, ghost base: int, ghost s: seq<Slot>, ghost i: nat)
    returns (hit: bool)
    requires i < |s| && !IsEmpty(s[i]) && t1 == SlotTime(base, s, i)
    ensures hit == GoneoffHit(base, s, goneoff, i)
  {
    hit := goneoff != "N" && LexLe(Hhmm(t1), goneoff) && LexLe(goneoff, Hhmm(t1 + Interval));
  }

  /** Before the walk stops, no slot passed holds the alarm. */
  lemma {:induction false} NoGoneoffHitBefore(base: int, s: seq<Slot>, goneoff: string, n: nat)
    requires n <= |s|
    requires forall j :: 0 <= j < n ==> !GoneoffHit(base, s, goneoff, j)
    ensures FirstGoneoffHit(base, s, goneoff, n).None?
  {
    if n > 0 {
      NoGoneoffHitBefore(base, s, goneoff, n - 1);
    }
  }

  /** The walk's view of the qualifying slots after one more slot. */
  lemma QualifyingStep(s: seq<Slot>, i: nat)
    requires i < |s|
    ensures FirstQualifying(s, i + 1)
            == if FirstQualifying(s, i).Some? then FirstQualifying(s, i)
               else if Qualifies(s[i]) then Some(i) else None
    ensures LastQualifying(s, i + 1) == if Qualifies(s[i]) then Some(i) else LastQualifying(s, i)
  {
  }

  /** The bounds when the alarm falls in no slot. */
  lemma SleepBoundsWithoutStop(base: int, s: seq<Slot>, goneoff: string)
    requires forall j :: 0 <= j < |s| ==> !GoneoffHit(base, s, goneoff, j)
    ensures SleepBounds(base, s, goneoff)
            == Bounds(StartOf(base, s, FirstQualifying(s, |s|)), FirstQualifying(s, |s|),
                      EndOf(base, s, LastQualifying(s, |s|)), LastQualifying(s, |s|))
  {
    NoGoneoffHitBefore(base, s, goneoff, |s|);
  }

  /** The bounds when the alarm first falls in slot `k`. */
  lemma SleepBoundsAtStop(base: int, s: seq<Slot>, goneoff: string, k: nat)
    requires k < |s| && GoneoffHit(base, s, goneoff, k)
    requires forall j :: 0 <= j < k ==> !GoneoffHit(base, s, goneoff, j)
    ensures SleepBounds(base, s, goneoff)
            == Bounds(StartOf(base, s, FirstQualifying(s, k)), FirstQualifying(s, k),
                      Some(ReturnAbsoluteMatch(SlotTime(base, s, k), SlotTime(base, s, k) + Interval, goneoff)),
                      Some(k))
  {
    FirstGoneoffHitAt(base, s, goneoff, k);
  }

  /** The first hit is the one that comes after no hit. */
  lemma FirstGoneoffHitAt(base: int, s: seq<Slot>, goneoff: string, k: nat)
    requires k < |s| && GoneoffHit(base, s, goneoff, k)
    requires forall j :: 0 <= j < k ==> !GoneoffHit(base, s, goneoff, j)
    ensures FirstGoneoffHit(base, s, goneoff, |s|) == Some(k)
  {
    NoGoneoffHitBefore(base, s, goneoff, k);
    FirstGoneoffHitStable(base, s, goneoff, k + 1, |s|);
  }

  /** The walk's variables between slots. */
  datatype Walk = Walk(pieStartPoint: int, firstSleep: bool, tbegin: Option<int>, ibegin: Option<nat>,
                       tendsStop: Option<int>, iendsStop: Option<nat>)

  /** The walk has passed the first `i` slots without meeting the alarm. */
  predicate WalkedTo(base: int, s: seq<Slot>, goneoff: string, i: nat, w: Walk) {
    && i <= |s|
    && w.pieStartPoint == SlotTime(base, s, i)
    && (forall j :: 0 <= j < i ==> !GoneoffHit(base, s, goneoff, j))
    && w.ibegin == FirstQualifying(s, i)
    && w.tbegin == StartOf(base, s, w.ibegin)
    && w.firstSleep == w.ibegin.None?
    && w.iendsStop == LastQualifying(s, i)
    && w.tendsStop == EndOf(base, s, w.iendsStop)
  }

  /** One pass of the walk's loop body, over slot `i`.  A `tends` comes back
      when the alarm falls in this slot and the walk stops. */
  method WalkSlot(base: int, splitup: seq<Slot>, goneoff: string, i: nat, w: Walk)
    returns (next: Walk, tends: Option<int>)
    requires i < |splitup| && WalkedTo(base, splitup, goneoff, i, w)
    ensures tends.None? ==> WalkedTo(base, splitup, goneoff, i + 1, next)
    ensures tends.Some? ==>
              && GoneoffHit(base, splitup, goneoff, i)
              && tends.value == ReturnAbsoluteMatch(SlotTime(base, splitup, i),
                                                    SlotTime(base, splitup, i) + Interval, goneoff)
  {
    next, tends := w, None;
    QualifyingStep(splitup, i);
    if splitup[i].raw == "" {
      return;
    }
    var data := splitup[i].val;
    var pieStartPoint1 := w.pieStartPoint;
    var pieStartPoint := w.pieStartPoint + Interval;
    next := next.(pieStartPoint := pieStartPoint);
    var hit := TestGoneoff(goneoff, pieStartPoint1, base, splitup, i);
    if hit {
      tends := Some(ReturnAbsoluteMatch(pieStartPoint1, pieStartPoint, goneoff));
      return;
    }
    if data != Some(-1) && data != Some(-2) && data.Some? && data.value <= MConst.awakeAbove {
      if next.firstSleep {
        next := next.(tbegin := Some(pieStartPoint1), ibegin := Some(i), firstSleep := false);
      }
      next := next.(tendsStop := Some(pieStartPoint), iendsStop := Some(i));
    }
  }

  /** Lines 165-214 of `calculateStats`: the walk to the sleep boundary. */
  method LocateSleep(base: int, splitup: seq<Slot>, goneoff: string) returns (b: Bounds)
    ensures b == SleepBounds(base, splitup, goneoff)
  {
    var w := Walk(base, true, None, None, None, None);
    var i := 0;
    while i < |splitup|
      invariant 0 <= i <= |splitup| && WalkedTo(base, splitup, goneoff, i, w)
    {
      var next, tends := WalkSlot(base, splitup, goneoff, i, w);
      if tends.Some? {
        SleepBoundsAtStop(base, splitup, goneoff, i);
        return Bounds(w.tbegin, w.ibegin, tends, Some(i));
      }
      w := next;
      i := i + 1;
    }
    SleepBoundsWithoutStop(base, splitup, goneoff);
    b := Bounds(w.tbegin, w.ibegin, w.tendsStop, w.iendsStop);
  }

  /** The count loop's body for index `j`. */
  method CountSlot(splitup: seq<Slot>, j: int, c: Counts) returns (next: Counts)
    ensures next == Counts(c.deep + CountedAs(splitup, j, Deep), c.light + CountedAs(splitup, j, Light),
                           c.awake + CountedAs(splitup, j, Awake), c.ignore + CountedAs(splitup, j, Ignored))
  {
    next := c;
    if ReadsEmpty(splitup, j) {
      return;
    }
    var data2 := ReadValue(splitup, j);
    if data2 == Some(-1) || data2 == Some(-2) {
      next := next.(ignore := next.ignore + 1);
    } else if data2.Some? && data2.value > MConst.awakeAbove {
      next := next.(awake := next.awake + 1);
    } else if data2.Some? && data2.value > MConst.lightAbove {
      next := next.(light := next.light + 1);
    } else {
      next := next.(deep := next.deep + 1);
    }
  }

  /** Lines 216-235 of `calculateStats`: the count loop over `ibegin..iends`. */
  method CountBands(splitup: seq<Slot>, ibegin: Option<nat>, iends: Option<nat>) returns (c: Counts)
    ensures c == Tally(splitup, ibegin, iends)
  {
    c := Counts(0, 0, 0, 0);
    var last := JsNumber(iends);
    var lo: nat;
    if ibegin.None? {
      // j = null: splitup[null] is undefined, parseInt(undefined) is NaN
      c := c.(deep := 1);
      lo := 1;
    } else {
      lo := ibegin.value;
    }
    ghost var phantom := if ibegin.None? then 1 else 0;
    var j := lo;
    while j <= last
      invariant lo <= j
      invariant j <= last + 1 || j == lo
      invariant c == Counts(phantom + BandCount(splitup, lo, j, Deep), BandCount(splitup, lo, j, Light),
                            BandCount(splitup, lo, j, Awake), BandCount(splitup, lo, j, Ignored))
      decreases if j <= last then last + 1 - j else 0
    {
      c := CountSlot(splitup, j, c);
      j := j + 1;
    }
  }

  /** Each slot the loop reads is counted in exactly one band, and the
      phantom read of `splitup[null]` adds one more. */
  lemma TallyTotal(s: seq<Slot>, ibegin: Option<nat>, iends: Option<nat>)
    ensures ibegin.Some? ==> Total(Tally(s, ibegin, iends)) == ReadCount(s, ibegin.value, JsNumber(iends) + 1)
    ensures ibegin.None? ==> Total(Tally(s, ibegin, iends)) == 1 + ReadCount(s, 1, JsNumber(iends) + 1)
  {
    BandsPartition(s, if ibegin.Some? then ibegin.value else 1, JsNumber(iends) + 1);
  }

  /** With a begin, the slots counted cover the sleep span: exactly when
      sleep ends at the last qualifying slot, and to within one interval
      when it ends at the alarm (whose minute lies inside the last slot
      counted). */
  lemma TotalCoversSleepSpan(base: int, s: seq<Slot>, goneoff: string)
    ensures var b := SleepBounds(base, s, goneoff);
            var c := Tally(s, b.ibegin, b.iends);
            b.tbegin.Some? && b.tends.Some? && FirstGoneoffHit(base, s, goneoff, |s|).None? ==>
              Interval * Total(c) == b.tends.value - b.tbegin.value
    ensures var b := SleepBounds(base, s, goneoff);
            var c := Tally(s, b.ibegin, b.iends);
            b.tbegin.Some? && b.tends.Some? && FirstGoneoffHit(base, s, goneoff, |s|).Some? ==>
              && b.tends.value - b.tbegin.value < Interval * Total(c)
              && Interval * Total(c) <= b.tends.value - b.tbegin.value + Interval
  {
    var b := SleepBounds(base, s, goneoff);
    SleepBegins(base, s, goneoff);
    SleepEnds(base, s, goneoff);
    SleepBoundsOrdered(base, s, goneoff);
    if b.tbegin.Some? {
      var ib, e := b.ibegin.value, b.iends.value;
      TallyTotal(s, b.ibegin, b.iends);
      ReadCountSpansAxis(base, s, ib, e + 1);
      assert SlotTime(base, s, e + 1) == SlotTime(base, s, e) + Interval;
    }
  }

  /** The statistics `calculateStats` reports. */
  datatype SleepStats = SleepStats(tbegin: Option<int>, tends: Option<int>, counts: Counts)

  /** `calculateStats`: the walk, the count, and the begin/end markers it
      adds to the overlay. */
  method CalculateStats(base: int, splitup: seq<Slot>, goneoff: string, conf: Overlay)
    returns (st: SleepStats, r: Overlay)
    ensures var b := SleepBounds(base, splitup, goneoff);
            && st.tbegin == b.tbegin && st.tends == b.tends
            && st.counts == Tally(splitup, b.ibegin, b.iends)
    ensures r.objects == conf.objects
                         + (if st.tbegin.Some? then [Marker(Begin, st.tbegin.value)] else [])
                         + (if st.tends.Some? then [Marker(EndStop, st.tends.value)] else [])
    ensures r.show == (conf.show || st.tbegin.Some? || st.tends.Some?)
    ensures st.tbegin.Some? ==> st.tends.Some? && st.tbegin.value < st.tends.value
    ensures st.tbegin.Some? && FirstGoneoffHit(base, splitup, goneoff, |splitup|).None? ==>
              Interval * Total(st.counts) == st.tends.value - st.tbegin.value
    ensures st.tbegin.None? ==> st.counts.deep >= 1
  {
    var b := LocateSleep(base, splitup, goneoff);
    r := conf;
    if b.tbegin.Some? {
      r := Overlay(true, r.objects + [Marker(Begin, b.tbegin.value)]);
    }
    var c := CountBands(splitup, b.ibegin, b.iends);
    if b.tends.Some? {
      r := Overlay(true, r.objects + [Marker(EndStop, b.tends.value)]);
    }
    st := SleepStats(b.tbegin, b.tends, c);
    SleepBoundsOrdered(base, splitup, goneoff);
    TotalCoversSleepSpan(base, splitup, goneoff);
  }

  // ---------------------------------------------------------------------
  // The count when no slot qualifies

  /** As written, a night in which no slot qualifies (here one awake
      reading) still reports one slot of deep sleep: the count loop runs
      once with `j` null and classifies the undefined `splitup[null]`. */
  lemma NoSleepCountsPhantomDeep()
    ensures var s := [Slot("1500", Some(1500))];
            var b := SleepBounds(0, s, "N");
            && b.tbegin.None? && b.tends.None?
            && Tally(s, b.ibegin, b.iends) == Counts(1, 0, 0, 0)
  {
    var s := [Slot("1500", Some(1500))];
    assert !Qualifies(s[0]);
    assert BandCount(s, 1, 1, Deep) == 0;
  }

  /** The count as evidently intended: nothing when sleep never began. */
  function TallyIntended(s: seq<Slot>, ibegin: Option<nat>, iends: Option<nat>): Counts {
    if ibegin.None? then Counts(0, 0, 0, 0) else Tally(s, ibegin, iends)
  }

  /** The intended count reports no sleep without a begin, and otherwise
      covers the sleep span as `TotalCoversSleepSpan` states. */
  lemma IntendedTallyCoversSleepSpan(base: int, s: seq<Slot>, goneoff: string)
    ensures var b := SleepBounds(base, s, goneoff);
            b.tbegin.None? ==> Total(TallyIntended(s, b.ibegin, b.iends)) == 0
    ensures var b := SleepBounds(base, s, goneoff);
            b.tbegin.Some? && FirstGoneoffHit(base, s, goneoff, |s|).None? ==>
              Interval * Total(TallyIntended(s, b.ibegin, b.iends)) == b.tends.value - b.tbegin.value
  {
    TotalCoversSleepSpan(base, s, goneoff);
  }

  /** The worked night: readings 50, 70, -1, -2, 1500, 90 from midnight,
      no alarm.  Sleep runs 00:00 to 01:00 with three deep slots, one
      awake and two ignored. */
  lemma WorkedNight()
    ensures var s := [Slot("50", Some(50)), Slot("70", Some(70)), Slot("-1", Some(-1)),
                      Slot("-2", Some(-2)), Slot("1500", Some(1500)), Slot("90", Some(90))];
            var b := SleepBounds(0, s, "N");
            && b == Bounds(Some(0), Some(0), Some(60), Some(5))
            && Tally(s, b.ibegin, b.iends) == Counts(3, 0, 1, 2)
  {
    var s := [Slot("50", Some(50)), Slot("70", Some(70)), Slot("-1", Some(-1)),
              Slot("-2", Some(-2)), Slot("1500", Some(1500)), Slot("90", Some(90))];
    assert FirstGoneoffHit(0, s, "N", 6).None?;
    assert Qualifies(s[5]) && Qualifies(s[0]);
    assert NonEmptyBefore(s, 5) == 5;
  }
}

=== FILE: wrappers.dfy ===
/** The absent-value datatype used throughout the model for JavaScript's
    `null` (an unset instant or index) and for `NaN` (a failed integer parse). */
module Wrappers {

  datatype Option<+T> = None | Some(value: T)
}
